=== FILE: README.md ===
# Slack AWS quiz webhook, modelled in Dafny

A model of `Hands-on1_Slack_Quiz/app.py`, an AWS Lambda handler behind a Slack
app. The handler authenticates each request with Slack's signing secret. The
`/awsquiz` slash command sends a four-option question, generated by a text
model or replaced by a fixed fallback. Each answer button carries a JSON token
with the answer, the correct answer, the explanation and the addressee.
Pressing a button grades the answer and records it in a DynamoDB table of
scores. `/leaderboard` shows the top five scores and the caller's rank.

Modules, one per file:

- `wrappers.dfy` (`Wrappers`): `Option`.
- `text.dfy` (`Text`): Python's `isspace`, `strip`, `startswith`, `split('\n')` and `lower`.
- `hex.dfy` (`Hex`): `hexdigest()` and the four-digit `\uXXXX` form.
- `pyint.dfy` (`PyInt`): `int(text)` and `str(n)`.
- `signature.dfy` (`Signature`): `verify_slack_request`.
- `quiz.dfy` (`QuizParser`): `parse_quiz_content`, `get_fallback_question` and the fallback rule of `generate_quiz_question`.
- `token.dfy` (`AnswerToken`): the button token as `json.dumps` writes it and `json.loads` reads it.
- `blocks.dfy` (`Blocks`): `create_quiz_blocks` and the grading test.
- `ledger.dfy` (`Ledger`): `update_user_score` as an update of a map from user to item.
- `leaderboard.dfy` (`Leaderboard`): `get_leaderboard` and `get_user_rank`.
- `router.dfy` (`Router`): `lambda_handler`, `handle_slash_command` and `handle_interaction`, for dispatch and state only.

Two behaviours of the code that are easy to misread:

- Headers are looked up by exact key (`event['headers'].get(...)` on a plain dict), so `X-Slack-Signature` and `x-slack-signature` are different headers.
- A generated reply that parses only partly is returned as parsed. Only an exception during generation selects the fallback question. `QuizParser.EmptyReplyIsNotReplaced` shows this: an empty reply becomes a quiz with empty fields and no options.

## Model

| member | source | states |
|---|---|---|
| Signature.VerifySlackRequest | Hands-on1_Slack_Quiz/app.py:31-56 | Acceptance holds exactly when all of these hold: the secret is present and non-empty; the headers exist; the timestamp parses as an integer, as `int()` parses it, within 300 s of the clock; the signature header equals `v0=` plus the hex MAC of `v0:<ts>:<body>`. There `SignedBody` writes a missing body as `""` and a null one as `None`, as the f-string does. Every failure yields false rather than an error. |
| Signature.SignedRequestAccepted | Hands-on1_Slack_Quiz/app.py:38-54 | A request signed as Slack signs it is accepted whenever it is at most 300 s old or early, the boundary included, whatever other headers it has. |
| Signature.StaleRequestRejected | Hands-on1_Slack_Quiz/app.py:43-44 | A timestamp more than 300 s from the clock is rejected, whatever the signature. |
| Signature.BaseStringInjective | Hands-on1_Slack_Quiz/app.py:47 | The base string `v0:<ts>:<body>` determines the timestamp and the body when the timestamp has no colon. |
| Signature.SignatureDetermines | Hands-on1_Slack_Quiz/app.py:47-52 | If the MAC does not collide, equal signatures mean equal key, timestamp and body. |
| Signature.ForgeryRejected | Hands-on1_Slack_Quiz/app.py:43-54 | Take a signature made for one key, timestamp and body. Sent with any other key, timestamp or body, it is rejected, unless the MAC collides. |
| PyInt.ParseInt | Hands-on1_Slack_Quiz/app.py:43 | `int(timestamp)`: text holding any of U+001C–U+001F is refused, since `int()` skips only the other whitespace. The rows below state the rest of the grammar one rule at a time: the sign, the underscores, the digit limit, surrounding whitespace and the characters an accepted text may hold. |
| PyInt.PlusSign | Hands-on1_Slack_Quiz/app.py:43 | A leading `+` is accepted: `int('+' + str(n)) == n` for every natural `n` of at most 4300 digits. |
| PyInt.UnderscoreBetweenDigits | Hands-on1_Slack_Quiz/app.py:43 | One underscore between two non-empty runs of ASCII digits is accepted and ignored: the text parses as the digits alone, and it parses whenever they have at most 4300 digits. |
| PyInt.DoubleUnderscoreRejected | Hands-on1_Slack_Quiz/app.py:43 | Two underscores in a row between runs of digits are refused. |
| PyInt.EdgeUnderscoreRejected | Hands-on1_Slack_Quiz/app.py:43 | An underscore before or after the digits is refused. |
| PyInt.ParseShow | Hands-on1_Slack_Quiz/app.py:43 | `int(str(n)) == n` for every integer whose `str(n)` succeeds (at most 4300 digits), so every timestamp Slack writes parses back to its value. |
| PyInt.SeparatorRejected | Hands-on1_Slack_Quiz/app.py:43 | `int()` skips surrounding whitespace (`" 5 "` is 5) but not the information separators U+001C–U+001F, which `str.isspace` counts as whitespace: `"\x1c5"` is refused. |
| PyInt.TooManyDigits | Hands-on1_Slack_Quiz/app.py:43 | A numeral of more than 4300 digits is refused, as the default `int()` digit limit demands. |
| Signature.SeparatorPaddedRejected | Hands-on1_Slack_Quiz/app.py:43-56 | A timestamp padded with U+001C is rejected even with a correct signature over it, because `int()` raises and the bare `except` returns false. |
| PyInt.ParsedChars | Hands-on1_Slack_Quiz/app.py:43 | Text that `int()` accepts holds only whitespace, signs, ASCII digits and underscores. |
| PyInt.ParsedHasNoColon | Hands-on1_Slack_Quiz/app.py:43-47 | Text that `int()` accepts has no colon, so the timestamp in the base string is unambiguous. |
| Hex.HexDigest | Hands-on1_Slack_Quiz/app.py:48-52 | `hexdigest()` writes two lower-case hexadecimal digits per byte. |
| Hex.FromHexDigest | Hands-on1_Slack_Quiz/app.py:48-52 | `hexdigest()` can be read back into the digest bytes. |
| Hex.HexDigestInjective | Hands-on1_Slack_Quiz/app.py:48-52 | Different digests have different hex texts. |
| Text.Strip | Hands-on1_Slack_Quiz/app.py:95-102 | `strip()` leaves no whitespace at either end of its result, and text with no whitespace at either end is returned unchanged. |
| Text.StripInfix | Hands-on1_Slack_Quiz/app.py:95-102 | `strip()` keeps one contiguous infix and removes only whitespace around it. |
| Text.StripIdempotent | Hands-on1_Slack_Quiz/app.py:95-102 | Stripping a stripped line changes nothing. |
| Text.Split | Hands-on1_Slack_Quiz/app.py:95 | `split('\n')` gives at least one piece, and no piece holds a newline. `SplitJoin` and `JoinSplit` are its partners. |
| Text.SplitJoin | Hands-on1_Slack_Quiz/app.py:95 | `split('\n')` of newline-joined lines without newlines gives the lines back. |
| Text.JoinSplit | Hands-on1_Slack_Quiz/app.py:95 | Joining the pieces of `split('\n')` with newlines gives the text back. |
| QuizParser.ParseQuizContent | Hands-on1_Slack_Quiz/app.py:93-117 | Every option the parser keeps starts with `A.`, `B.`, `C.` or `D.`. |
| QuizParser.OptionLines | Hands-on1_Slack_Quiz/app.py:105-106 | The reference definition of the options: the stripped option lines, in order. There are never more options than lines. |
| QuizParser.ParseOptions | Hands-on1_Slack_Quiz/app.py:101-106 | The parsed options are exactly the stripped `A.`–`D.` lines, verbatim and in input order, appended to what was there. |
| QuizParser.ParseScalars | Hands-on1_Slack_Quiz/app.py:101-110 | Question, answer and explanation come from the last line that carries each prefix. The answer is also stripped. A field with no such line keeps its previous value, `""` for a fresh parse. |
| QuizParser.ParseLinesAppend | Hands-on1_Slack_Quiz/app.py:101-110 | The line loop is a left fold of `ParseLine`, one step per line: parsing `a + b` is parsing `b` from the state after `a`. |
| QuizParser.UnrecognisedLineIgnored | Hands-on1_Slack_Quiz/app.py:101-110 | A line that carries no prefix and is not an option line changes nothing. |
| QuizParser.ParseRender | Hands-on1_Slack_Quiz/app.py:93-117 | A quiz written line by line in the prompt's format parses back to the same quiz. |
| QuizParser.FallbackShape | Hands-on1_Slack_Quiz/app.py:119-131 | The fallback has four options labelled A, B, C, D in order. Its answer `B` is the label of the second option. |
| QuizParser.FallbackRoundTrip | Hands-on1_Slack_Quiz/app.py:119-131 | The fallback is in the generator's format: rendering it and parsing the text gives it back. |
| QuizParser.Generate | Hands-on1_Slack_Quiz/app.py:84-91 | The fallback is used exactly when the generation call fails. Any reply text is parsed, and the result's options are always well formed. |
| QuizParser.EmptyReplyIsNotReplaced | Hands-on1_Slack_Quiz/app.py:86-91 | An empty reply is not replaced by the fallback: it yields a quiz with empty fields and no options. |
| AnswerToken.Escape | Hands-on1_Slack_Quiz/app.py:149-154 | With `ensure_ascii`, the string literal `json.dumps` writes is printable ASCII only. |
| AnswerToken.EncodedShape | Hands-on1_Slack_Quiz/app.py:149-154 | The token `json.dumps` writes (`EncodeToken`) is one object that opens with the `answer` key and closes with `}`, and every character in it is printable ASCII. |
| AnswerToken.EscapeCharPrintable | Hands-on1_Slack_Quiz/app.py:149-154 | Each escaped character, including `\uXXXX` surrogate pairs, is printable ASCII. |
| AnswerToken.ReadEscaped | Hands-on1_Slack_Quiz/app.py:149-154 | Reading a JSON string literal that `json.dumps` wrote gives the original text, and the rest of the input is left over. |
| AnswerToken.DecodeEncode | Hands-on1_Slack_Quiz/app.py:149-154 | `json.loads(json.dumps(token))` gives the token back, for every four-string token. |
| AnswerToken.DecodeToken | Hands-on1_Slack_Quiz/app.py:272-275 | `json.loads` of a button value reads only text that opens with the `answer` key. With `DecodeEncode` as its partner, every token the handler writes decodes back to itself. |
| Blocks.CreateQuizBlocks | Hands-on1_Slack_Quiz/app.py:133-160 | There is one button per option, in order, labelled with the option. Each action id is `quiz_answer_` followed by the lower-cased label. |
| Text.Lower | Hands-on1_Slack_Quiz/app.py:155 | `lower()` keeps the length and maps each ASCII capital to its small letter, leaving every other character as it is. |
| Blocks.ButtonToken | Hands-on1_Slack_Quiz/app.py:147-155 | Button `i`'s value decodes to the option's first character, the quiz's answer and explanation, and the addressee. All buttons share the last three. |
| Blocks.ButtonTokens | Hands-on1_Slack_Quiz/app.py:143-158 | Every button of the message carries, in its value, its own label with the quiz's answer, explanation and addressee. |
| Blocks.GradeButton | Hands-on1_Slack_Quiz/app.py:273-278 | Button `i` is graded correct (`IsCorrect`, the `answer == correct` test of line 277) exactly when its option's label equals the quiz's correct answer. |
| Blocks.ParsedActionIds | Hands-on1_Slack_Quiz/app.py:155 | For a parsed quiz the buttons can always be built. Their action ids are `quiz_answer_a` to `quiz_answer_d`. |
| Blocks.FallbackGrading | Hands-on1_Slack_Quiz/app.py:119-131 | On the fallback question only the second button, B, is graded correct. |
| Ledger.Truncate | Hands-on1_Slack_Quiz/app.py:172 | `int(time.time())` truncates toward zero: for a clock at or after the epoch the stamp `n` satisfies `n <= now < n + 1`, and it is never above 0 before the epoch. Line 182 stamps the same way. |
| Ledger.UpdateUserScore | Hands-on1_Slack_Quiz/app.py:162-190 | The total rises by one and the score by one exactly when the answer is correct. An absent attribute counts as 0. A wrong answer leaves an absent score absent. `last_updated` becomes the truncated clock. Other users' items are unchanged, and only the answering user's key is added. |
| Ledger.RecordAnswer | Hands-on1_Slack_Quiz/app.py:162-190 | When the store call fails the table is unchanged and no attributes come back. Otherwise the attributes returned are the item now stored for the user (`ALL_NEW`): its total grew by one, its score by one exactly when the answer is correct, and `last_updated` is the truncated clock. No other user's item changed. |
| Ledger.UpdateKeepsConsistent | Hands-on1_Slack_Quiz/app.py:165-186 | An update keeps every item's score between 0 and its total. |
| Ledger.UpdatesCommute | Hands-on1_Slack_Quiz/app.py:165-186 | Two answers whose clock readings truncate to the same second give the same table in either order. |
| Ledger.FirstWrongAnswer | Hands-on1_Slack_Quiz/app.py:176-186 | A first wrong answer leaves no score attribute, which reads as 0, and sets the total to 1. |
| Ledger.RightThenWrong | Hands-on1_Slack_Quiz/app.py:165-186 | A right then a wrong answer from an empty table give score 1 out of 2. |
| Ledger.ReplayCounts | Hands-on1_Slack_Quiz/app.py:162-190 | After any run of answers, each user's total has grown by the answers they gave and their score by their correct ones. A user who gave none keeps their item. |
| Ledger.Accuracy | Hands-on1_Slack_Quiz/app.py:286-288 | There is a percentage exactly when the total is positive; otherwise the message shows "0%". For a consistent item it lies between 0 and 100, and it is 100 when every answer was right. |
| Leaderboard.SortDesc | Hands-on1_Slack_Quiz/app.py:199 | The sort is a permutation of the scan, with scores not increasing. |
| Leaderboard.SortStable | Hands-on1_Slack_Quiz/app.py:199 | Items with equal scores keep their scan order, as Python's stable `sorted` does even with `reverse=True`. |
| Leaderboard.SortCharacterised | Hands-on1_Slack_Quiz/app.py:199 | Any arrangement with scores not increasing that keeps each score's items in scan order is exactly the sort: descending order plus stability pin the result down. |
| Leaderboard.InsertSorted | Hands-on1_Slack_Quiz/app.py:199 | Inserting into a descending run keeps it descending. |
| Leaderboard.GetLeaderboard | Hands-on1_Slack_Quiz/app.py:192-203 | The board is the first min(5, n) items of the stable descending sort, so it is drawn from the scan, highest scores first. A failed scan gives an empty board. |
| Leaderboard.TopScores | Hands-on1_Slack_Quiz/app.py:199-200 | Every scanned item left off the board scores no more than anyone on it. |
| Leaderboard.FirstIndex | Hands-on1_Slack_Quiz/app.py:214-218 | The loop stops at the first item with the user's id: no earlier item has it, and there is no index exactly when no item has it. |
| Leaderboard.GetUserRank | Hands-on1_Slack_Quiz/app.py:205-221 | There is a rank exactly when the user is in the scan. It is the 1-based position of the user's first item in the sorted scan, between 1 and n. A failed scan gives no rank. |
| Leaderboard.SameUsers | Hands-on1_Slack_Quiz/app.py:212-216 | Sorting neither adds nor removes a user. |
| Leaderboard.RankOnBoard | Hands-on1_Slack_Quiz/app.py:240-252 | A user ranked 1 to 5 is the board's entry at that position. |
| Router.FormFields | Hands-on1_Slack_Quiz/app.py:311-312 | Each form field keeps its first value, or `""` when it has none. The keys are unchanged. |
| Router.HandleSlashCommand | Hands-on1_Slack_Quiz/app.py:223-264 | `/awsquiz` gives a quiz message and `/leaderboard` the ranking. Any other command gets no reply. The quiz message holds one button per option of the generated quiz, labelled with the option, and button `i` decodes to that option's label, the quiz's answer and explanation, and the caller. The message is exactly the blocks `CreateQuizBlocks` builds for the generated quiz and the caller: the question section and the `quiz_answer_<label>` action ids included. The ranking is the leaderboard of the scan and the caller's rank in that scan. |
| Router.HandleInteraction | Hands-on1_Slack_Quiz/app.py:266-298 | A first action whose id lacks `quiz_answer_` gets no reply, exactly. An answer result comes exactly when the action id has the prefix and its value decodes to a token. The result is correct exactly when the token's answer equals its correct answer, and it carries the token's correct answer and explanation. It is recorded for the payload's user, stamped with the update's own clock reading, only when the store call succeeds, and the totals shown are the stored item. Any other payload is an internal error and leaves the table unchanged. |
| Router.InteractionBody | Hands-on1_Slack_Quiz/app.py:314-317 | A body without a decodable `payload` field (`BodyPayload`) is an internal error. A body with one is exactly `HandleInteraction` of the decoded payload. No reply comes only from a non-answer button. Only a graded answer changes the table. |
| Router.LambdaHandler | Hands-on1_Slack_Quiz/app.py:300-326 | The reply is 401 exactly when verification fails. It is 400 exactly when an authenticated request has a missing, null or empty body. A form content type goes to the slash-command handler, which never fails, never grades and leaves the table alone. Any other content type goes to the interaction path, which never sends a quiz or a ranking. Only a graded answer changes the table. |
| Router.ReplySources | Hands-on1_Slack_Quiz/app.py:300-326 | A 200 or a missing reply only follows a verified request with a body. A 500 only arises on the interaction path. No reply means an unknown slash command or a first action that is not an answer button. |
| Router.OnlyAnswersChangeTable | Hands-on1_Slack_Quiz/app.py:300-326 | A request that changes the table does so through a stored answer, and only at the answering user's item. |
| Router.PressGrades | Hands-on1_Slack_Quiz/app.py:266-298 | Pressing button `i` gives an answer result. It is correct exactly when the option's label is the quiz's answer, and it carries that answer and the explanation. The presser's total rises by one when stored. |
| Router.PressingButtonGrades | Hands-on1_Slack_Quiz/app.py:300-317 | The same result end to end, through authentication and form decoding of the interaction body. |
| Router.QuizCommandFallback | Hands-on1_Slack_Quiz/app.py:228-230 | `/awsquiz` with a failed generation call sends the fallback's four buttons. Each carries its label, answer `B`, the explanation and the caller. |

## Left out

- Calls to AWS services: Secrets Manager, Bedrock and DynamoDB. Their results are parameters: the secret, the generated text or its failure, the scan result or its failure, and whether the update call succeeds.
- HMAC-SHA256: a function parameter `Mac`. `hmac.compare_digest` becomes plain equality, because constant-time behaviour is outside the model.
- `time.time()`: two parameters. `now` is the reading for the replay window (line 43) and `stamp` the later reading for `last_updated` (lines 172 and 182). The model assumes no relation between them.
- Signature.VerifySlackRequest: compares the clock with the timestamp on exact reals. It does not model float rounding, or the `OverflowError` (caught as a rejection) for a timestamp too large for a float.
- PyInt.ParseInt: the grammar is stated rule by rule in the lemmas named in its row, not as one all-inputs characterisation of the accepted texts. It accepts ASCII digits only. Python's `int()` also accepts other Unicode decimal digits. The digit limit is the default 4300; a limit changed through `sys.set_int_max_str_digits` or the environment is not modelled.
- Blocks.CreateQuizBlocks: lower-cases ASCII letters only. That is exact for the labels A–D of every parsed quiz; Python's `lower()` also maps non-ASCII letters. It requires every option to be non-empty, where Python raises `IndexError`, and every quiz the handler builds meets this.
- AnswerToken.DecodeToken: reads the object layout `json.dumps` writes: key order, separators and no extra whitespace. `json.loads` accepts any layout and any JSON value types. Only tokens built by the handler are modelled. Lone surrogates in text are left out, because a Dafny `char` cannot hold one.
- `parse_qs` and `json.loads` of the interaction payload: the environment parameters `parseForm` and `decodePayload`.
- The reply bodies: message texts, `response_type`, `replace_original`, Block Kit JSON framing, and the `.1f` formatting of accuracies. Replies are a datatype carrying what the texts are built from.
- Router.HandleSlashCommand: `/leaderboard` scans the table twice; the model uses one scan for both. The scan is a parameter, not derived from the table, and only its first page is read, as in the source.
- `Decimal` arithmetic in the update expressions: scores and totals are integers.
- Logging through `print`.

=== FILE: blocks.dfy ===
/** The quiz message: a section with the question and one button per option,
    each button carrying an answer token; and the grading of a pressed button. */
module Blocks {
  import opened Wrappers
  import opened Text
  import opened QuizParser
  import opened AnswerToken

  /** Every answer button's `action_id` starts with this; the interaction
      handler grades only actions that carry it. */
  const AnswerActionPrefix: string := "quiz_answer_"

  /** The bold heading above the question. */
  const Heading: string := "\U{1F9E0} *AWS クラウドサービス知識クイズ*\n\n"

  datatype Button = Button(text: string, value: string, actionId: string)

  /** The two Block Kit blocks: the section's mrkdwn text and the action buttons. */
  datatype Message = Message(section: string, buttons: seq<Button>)

  predicate OptionsNonEmpty(options: seq<string>) {
    forall i :: 0 <= i < |options| ==> |options[i]| > 0
  }

  /** Every option a parsed quiz can hold starts with its label, so the
      message can be built from any generated quiz. */
  lemma WellFormedNonEmpty(options: seq<string>)
    requires OptionsWellFormed(options)
    ensures OptionsNonEmpty(options)
  {
    forall j | 0 <= j < |options| ensures |options[j]| > 0 {
      assert IsOptionLine(options[j]);
    }
  }

  /** The label of an option: its first character. */
  function Label(option: string): string
    requires |option| > 0
  {
    option[..1]
  }

  function AnswerButton(option: string, q: Quiz, userId: string): Button
    requires |option| > 0
  {
    Button(option,
           EncodeToken(Token(Label(option), q.correctAnswer, q.explanation, userId)),
           AnswerActionPrefix + Lower(Label(option)))
  }

  /** The quiz message sent to `userId`: the question in bold under the
      heading, then one button per option in order. */
  function CreateQuizBlocks(q: Quiz, userId: string): (m: Message)
    requires OptionsNonEmpty(q.options)
    ensures StartsWith(m.section, Heading)
    ensures |m.buttons| == |q.options|
    ensures forall i :: 0 <= i < |m.buttons| ==>
              m.buttons[i].text == q.options[i]
              && StartsWith(m.buttons[i].actionId, AnswerActionPrefix)
              && |m.buttons[i].actionId| == |AnswerActionPrefix| + 1
              && m.buttons[i].actionId[|AnswerActionPrefix|] == LowerChar(q.options[i][0])
  {
    Message(Heading + "*" + q.question + "*",
            seq(|q.options|, i requires 0 <= i < |q.options| => AnswerButton(q.options[i], q, userId)))
  }

  /** `is_correct`: the answer in the token equals the correct answer it carries. */
  predicate IsCorrect(t: Token) {
    t.answer == t.correct
  }

  /** The token a button carries reads back as the option's label and the quiz's
      answer, explanation and addressee. */
  lemma ButtonToken(q: Quiz, userId: string, i: int)
    requires OptionsNonEmpty(q.options) && 0 <= i < |q.options|
    ensures DecodeToken(CreateQuizBlocks(q, userId).buttons[i].value)
         == Some(Token(Label(q.options[i]), q.correctAnswer, q.explanation, userId))
  {
    DecodeEncode(Token(Label(q.options[i]), q.correctAnswer, q.explanation, userId));
  }

  /** Every button's value decodes to its option's label and the quiz's
      answer, explanation and addressee. */
  lemma ButtonTokens(q: Quiz, userId: string)
    requires OptionsNonEmpty(q.options)
    ensures forall i :: 0 <= i < |q.options| ==>
              DecodeToken(CreateQuizBlocks(q, userId).buttons[i].value)
              == Some(Token(Label(q.options[i]), q.correctAnswer, q.explanation, userId))
  {
    forall i | 0 <= i < |q.options|
      ensures DecodeToken(CreateQuizBlocks(q, userId).buttons[i].value)
              == Some(Token(Label(q.options[i]), q.correctAnswer, q.explanation, userId))
    {
      ButtonToken(q, userId, i);
    }
  }

  /** Pressing button `i` is graded correct exactly when the option's label is
      the quiz's correct answer. */
  lemma GradeButton(q: Quiz, userId: string, i: int)
    requires OptionsNonEmpty(q.options) && 0 <= i < |q.options|
    ensures var t := DecodeToken(CreateQuizBlocks(q, userId).buttons[i].value);
            t.Some? && (IsCorrect(t.value) <==> Label(q.options[i]) == q.correctAnswer)
  {
    ButtonToken(q, userId, i);
  }

  /** A parsed quiz always meets the message's precondition, and its buttons'
      action ids are `quiz_answer_a` … `quiz_answer_d`. */
  lemma ParsedActionIds(q: Quiz, userId: string, i: int)
    requires OptionsWellFormed(q.options) && 0 <= i < |q.options|
    ensures OptionsNonEmpty(q.options)
    ensures var id := CreateQuizBlocks(q, userId).buttons[i].actionId;
            id == AnswerActionPrefix + ['a'] || id == AnswerActionPrefix + ['b']
            || id == AnswerActionPrefix + ['c'] || id == AnswerActionPrefix + ['d']
  {
    WellFormedNonEmpty(q.options);
    var id := CreateQuizBlocks(q, userId).buttons[i].actionId;
    assert IsOptionLine(q.options[i]);
    assert id == AnswerActionPrefix + [id[|AnswerActionPrefix|]];
  }

  lemma FallbackLabel(i: int)
    requires 0 <= i < 4
    ensures |Fallback.options| == 4 && |Fallback.options[i]| > 0
    ensures Label(Fallback.options[i]) == Fallback.correctAnswer <==> i == 1
  {
    FallbackShape();
    assert IsOptionLine(Fallback.options[i]);
    assert Label(Fallback.options[i]) == ["ABCD"[i]];
  }

  /** In the fallback question only the second button, `B`, is graded correct. */
  lemma FallbackGrading(userId: string, i: int)
    requires 0 <= i < 4
    ensures OptionsNonEmpty(Fallback.options)
    ensures var t := DecodeToken(CreateQuizBlocks(Fallback, userId).buttons[i].value);
            t.Some? && (IsCorrect(t.value) <==> i == 1)
  {
    FallbackShape();
    WellFormedNonEmpty(Fallback.options);
    FallbackLabel(i);
    GradeButton(Fallback, userId, i);
  }
}

=== FILE: hex.dfy ===
/** Lower-case hexadecimal text, as produced by Python's `hexdigest()` and
    by the `\uXXXX` escapes of `json.dumps`. */
module Hex {
  import opened Wrappers

  newtype byte = x: int | 0 <= x < 256

  /** A lower-case hexadecimal digit. */
  predicate IsLowerHex(c: char) {
    '0' <= c <= '9' || 'a' <= c <= 'f'
  }

  /** The lower-case digit for a value below 16. */
  function DigitChar(d: int): (c: char)
    requires 0 <= d < 16
    ensures IsLowerHex(c)
  {
    if d < 10 then ('0' as int + d) as char else ('a' as int + d - 10) as char
  }

  /** The value of one hexadecimal digit, either case; `None` for any other character. */
  function DigitValue(c: char): (r: Option<int>)
    ensures r.Some? <==> ('0' <= c <= '9' || 'a' <= c <= 'f' || 'A' <= c <= 'F')
    ensures r.Some? ==> 0 <= r.value < 16
  {
    if '0' <= c <= '9' then Some(c as int - '0' as int)
    else if 'a' <= c <= 'f' then Some(c as int - 'a' as int + 10)
    else if 'A' <= c <= 'F' then Some(c as int - 'A' as int + 10)
    else None
  }

  /** Reading a written digit gives its value back. */
  lemma DigitRoundTrip(d: int)
    requires 0 <= d < 16
    ensures DigitValue(DigitChar(d)) == Some(d)
  {
  }

  /** `bytes.hex()` / `hexdigest()`: two lower-case digits per byte, high nibble first. */
  function HexDigest(bs: seq<byte>): (r: string)
    ensures |r| == 2 * |bs|
    ensures forall i :: 0 <= i < |r| ==> IsLowerHex(r[i])
  {
    if |bs| == 0 then ""
    else [DigitChar(bs[0] as int / 16), DigitChar(bs[0] as int % 16)] + HexDigest(bs[1..])
  }

  /** Reads a hexadecimal string back into bytes; `None` on odd length or a non-digit. */
  function FromHex(s: string): (r: Option<seq<byte>>)
    ensures r.Some? ==> 2 * |r.value| == |s|
  {
    if |s| < 2 then (if |s| == 0 then Some([]) else None)
    else
      var hi, lo, rest := DigitValue(s[0]), DigitValue(s[1]), FromHex(s[2..]);
      if hi.Some? && lo.Some? && rest.Some? then Some([(hi.value * 16 + lo.value) as byte] + rest.value)
      else None
  }

  /** The two digits of one byte read back as that byte. */
  lemma ReadPairOfDigits(b: byte, rest: string)
    ensures FromHex(HexDigest([b]) + rest)
         == if FromHex(rest).Some? then Some([b] + FromHex(rest).value) else None
  {
    var hi, lo := b as int / 16, b as int % 16;
    assert HexDigest([b]) == [DigitChar(hi), DigitChar(lo)];
    var s := HexDigest([b]) + rest;
    assert s[0] == DigitChar(hi) && s[1] == DigitChar(lo) && s[2..] == rest;
    DigitRoundTrip(hi);
    DigitRoundTrip(lo);
    assert (hi * 16 + lo) as byte == b;
  }

  /** `FromHex` inverts `HexDigest`. */
  lemma {:induction false} FromHexDigest(bs: seq<byte>)
    ensures FromHex(HexDigest(bs)) == Some(bs)
  {
    if |bs| > 0 {
      FromHexDigest(bs[1..]);
      assert HexDigest(bs) == HexDigest([bs[0]]) + HexDigest(bs[1..]);
      ReadPairOfDigits(bs[0], HexDigest(bs[1..]));
      assert [bs[0]] + bs[1..] == bs;
    }
  }

  /** Distinct byte strings have distinct digests. */
  lemma HexDigestInjective(a: seq<byte>, b: seq<byte>)
    requires HexDigest(a) == HexDigest(b)
    ensures a == b
  {
    FromHexDigest(a);
    FromHexDigest(b);
  }

  /** `'{0:04x}'.format(n)`: exactly four lower-case digits. */
  function Hex4(n: int): (r: string)
    requires 0 <= n < 0x10000
    ensures |r| == 4
    ensures forall i :: 0 <= i < 4 ==> IsLowerHex(r[i])
  {
    [DigitChar(n / 16 / 16 / 16), DigitChar(n / 16 / 16 % 16), DigitChar(n / 16 % 16), DigitChar(n % 16)]
  }

  /** The value of four hexadecimal digits, either case; `None` if any is not a digit. */
  function Value4(s: string): (r: Option<int>)
    requires |s| == 4
    ensures r.Some? ==> 0 <= r.value < 0x10000
  {
    var a, b, c, d := DigitValue(s[0]), DigitValue(s[1]), DigitValue(s[2]), DigitValue(s[3]);
    if a.Some? && b.Some? && c.Some? && d.Some? then
      Some(((a.value * 16 + b.value) * 16 + c.value) * 16 + d.value)
    else None
  }

  /** `Value4` inverts `Hex4`. */
  lemma Value4Hex4(n: int)
    requires 0 <= n < 0x10000
    ensures Value4(Hex4(n)) == Some(n)
  {
    var q1, q2 := n / 16, n / 16 / 16;
    var q3 := q2 / 16;
    var s := Hex4(n);
    DigitRoundTrip(q3);
    DigitRoundTrip(q2 % 16);
    DigitRoundTrip(q1 % 16);
    DigitRoundTrip(n % 16);
    assert DigitValue(s[0]) == Some(q3);
    assert DigitValue(s[1]) == Some(q2 % 16);
    assert DigitValue(s[2]) == Some(q1 % 16);
    assert DigitValue(s[3]) == Some(n % 16);
    assert q2 == q3 * 16 + q2 % 16;
    assert q1 == q2 * 16 + q1 % 16;
    assert n == q1 * 16 + n % 16;
  }
}

=== FILE: leaderboard.dfy ===
/** The leaderboard and a user's rank: the scanned items sorted by score,
    highest first, ties in scan order (Python's `sorted` is stable, also with
    `reverse=True`). */
module Leaderboard {
  import opened Wrappers
  import opened Ledger

  /** An item as the scan returns it. */
  datatype Item = Item(userId: string, attrs: Attrs)

  /** How many entries the leaderboard shows. */
  const TopCount: nat := 5

  /** The sort key, `int(x.get('score', 0))`. */
  function Key(it: Item): int {
    Score(it.attrs)
  }

  predicate SortedDesc(s: seq<Item>) {
    forall i, j :: 0 <= i < j < |s| ==> Key(s[i]) >= Key(s[j])
  }

  /** The items of `s` whose key is `k`, in order. */
  function WithKey(s: seq<Item>, k: int): (r: seq<Item>)
    ensures |r| <= |s|
  {
    if |s| == 0 then []
    else (if Key(s[0]) == k then [s[0]] else []) + WithKey(s[1..], k)
  }

  /** Inserts `x` into a descending run, before every item whose key is not
      greater than its own. */
  function Insert(x: Item, s: seq<Item>): (r: seq<Item>)
    ensures |r| == |s| + 1
    ensures multiset(r) == multiset(s) + multiset{x}
  {
    if |s| == 0 || Key(x) >= Key(s[0]) then [x] + s
    else
      var rest := Insert(x, s[1..]);
      assert multiset(s) == multiset{s[0]} + multiset(s[1..]) by {
        assert s == [s[0]] + s[1..];
      }
      [s[0]] + rest
  }

  /** Inserting into a descending run keeps it descending. */
  lemma {:induction false} InsertSorted(x: Item, s: seq<Item>)
    requires SortedDesc(s)
    ensures SortedDesc(Insert(x, s))
    ensures Insert(x, s)[0] == x || Insert(x, s)[0] == s[0]
  {
    if |s| > 0 && Key(x) < Key(s[0]) {
      var rest := Insert(x, s[1..]);
      assert SortedDesc(s[1..]);
      InsertSorted(x, s[1..]);
      var r := Insert(x, s);
      assert r == [s[0]] + rest;
      assert Key(s[0]) >= Key(rest[0]);
      forall i, j | 0 <= i < j < |r| ensures Key(r[i]) >= Key(r[j]) {
        assert r[j] == rest[j - 1];
        if i > 0 {
          assert r[i] == rest[i - 1];
        } else {
          assert Key(rest[0]) >= Key(rest[j - 1]);
        }
      }
    }
  }

  /** The stable descending sort `sorted(items, key=..., reverse=True)`. */
  function SortDesc(s: seq<Item>): (r: seq<Item>)
    ensures |r| == |s|
    ensures multiset(r) == multiset(s)
    ensures SortedDesc(r)
  {
    if |s| == 0 then []
    else
      assert s == [s[0]] + s[1..];
      InsertSorted(s[0], SortDesc(s[1..]));
      Insert(s[0], SortDesc(s[1..]))
  }

  lemma {:induction false} InsertWithKey(x: Item, s: seq<Item>, k: int)
    ensures WithKey(Insert(x, s), k) == (if Key(x) == k then [x] else []) + WithKey(s, k)
  {
    if |s| == 0 || Key(x) >= Key(s[0]) {
      assert ([x] + s)[1..] == s;
    } else {
      var rest := Insert(x, s[1..]);
      InsertWithKey(x, s[1..], k);
      assert ([s[0]] + rest)[1..] == rest;
      assert WithKey(Insert(x, s), k) == (if Key(s[0]) == k then [s[0]] else []) + WithKey(rest, k);
      if Key(x) == k {
        assert WithKey(s, k) == WithKey(s[1..], k);
      } else {
        assert WithKey(rest, k) == WithKey(s[1..], k);
      }
    }
  }

  /** Stability: among items with equal scores the sorted order is the scan order. */
  lemma {:induction false} SortStable(s: seq<Item>, k: int)
    ensures WithKey(SortDesc(s), k) == WithKey(s, k)
  {
    if |s| > 0 {
      SortStable(s[1..], k);
      InsertWithKey(s[0], SortDesc(s[1..]), k);
    }
  }

  /** The head of a descending run heads its own key's items. */
  lemma {:induction false} HeadLeadsItsKey(s: seq<Item>, k: int)
    requires |s| > 0
    ensures WithKey(s, k) == (if Key(s[0]) == k then [s[0]] else []) + WithKey(s[1..], k)
  {
  }

  /** An item with key `k` shows up in the items with key `k`. */
  lemma {:induction false} KeyPresent(s: seq<Item>, i: int)
    requires 0 <= i < |s|
    ensures |WithKey(s, Key(s[i]))| > 0
  {
    if i > 0 {
      KeyPresent(s[1..], i - 1);
      assert s[1..][i - 1] == s[i];
    }
  }

  /** Every item of a non-empty filter has that key and comes from the sequence. */
  lemma {:induction false} KeyWitness(s: seq<Item>, k: int)
    requires |WithKey(s, k)| > 0
    ensures exists i :: 0 <= i < |s| && Key(s[i]) == k
  {
    if Key(s[0]) != k {
      KeyWitness(s[1..], k);
      var i :| 0 <= i < |s[1..]| && Key(s[1..][i]) == k;
      assert Key(s[i + 1]) == k;
    }
  }

  /** Sequences with the same head and the same items of key `k` agree on
      those items after the head. */
  lemma {:induction false} TailsAgree(a: seq<Item>, b: seq<Item>, k: int)
    requires |a| > 0 && |b| > 0 && a[0] == b[0]
    requires WithKey(a, k) == WithKey(b, k)
    ensures WithKey(a[1..], k) == WithKey(b[1..], k)
  {
    HeadLeadsItsKey(a, k);
    HeadLeadsItsKey(b, k);
    if Key(a[0]) == k {
      var x, y := WithKey(a[1..], k), WithKey(b[1..], k);
      assert x == WithKey(a, k)[1..];
      assert y == WithKey(b, k)[1..];
    } else {
      assert WithKey(a, k) == WithKey(a[1..], k);
      assert WithKey(b, k) == WithKey(b[1..], k);
    }
  }

  /** Sequences with the same items of every key are both empty or both not. */
  lemma SameKeysBothEmpty(a: seq<Item>, b: seq<Item>)
    requires forall k :: WithKey(a, k) == WithKey(b, k)
    ensures |a| == 0 <==> |b| == 0
  {
    if |a| > 0 {
      KeyPresent(a, 0);
      assert WithKey(b, Key(a[0])) == WithKey(a, Key(a[0]));
    }
    if |b| > 0 {
      KeyPresent(b, 0);
      assert WithKey(a, Key(b[0])) == WithKey(b, Key(b[0]));
    }
  }

  /** The head of a descending run holds the highest key present. */
  lemma HeadKeyIsTop(s: seq<Item>, k: int)
    requires SortedDesc(s) && |WithKey(s, k)| > 0
    ensures Key(s[0]) >= k
  {
    KeyWitness(s, k);
    var i :| 0 <= i < |s| && Key(s[i]) == k;
    if i > 0 {
      assert Key(s[0]) >= Key(s[i]);
    }
  }

  /** Two non-empty descending runs with the same items of every key start
      with the same item. */
  lemma SameKeysSameHead(a: seq<Item>, b: seq<Item>)
    requires SortedDesc(a) && SortedDesc(b) && |a| > 0 && |b| > 0
    requires forall k :: WithKey(a, k) == WithKey(b, k)
    ensures a[0] == b[0]
  {
    var ka, kb := Key(a[0]), Key(b[0]);
    KeyPresent(a, 0);
    KeyPresent(b, 0);
    assert WithKey(b, ka) == WithKey(a, ka);
    assert WithKey(a, kb) == WithKey(b, kb);
    HeadKeyIsTop(b, ka);
    HeadKeyIsTop(a, kb);
    HeadLeadsItsKey(a, ka);
    HeadLeadsItsKey(b, ka);
    assert a[0] == WithKey(a, ka)[0] == WithKey(b, ka)[0] == b[0];
  }

  /** After a shared head, the tails have the same items of every key. */
  lemma SameKeysSameTails(a: seq<Item>, b: seq<Item>)
    requires |a| > 0 && |b| > 0 && a[0] == b[0]
    requires forall k :: WithKey(a, k) == WithKey(b, k)
    ensures forall k :: WithKey(a[1..], k) == WithKey(b[1..], k)
  {
    forall k ensures WithKey(a[1..], k) == WithKey(b[1..], k) {
      TailsAgree(a, b, k);
    }
  }

  /** Two descending runs with the same items of every key, in the same order,
      are equal. */
  lemma {:induction false} SortedUnique(a: seq<Item>, b: seq<Item>)
    requires SortedDesc(a) && SortedDesc(b)
    requires forall k :: WithKey(a, k) == WithKey(b, k)
    ensures a == b
    decreases |a|
  {
    SameKeysBothEmpty(a, b);
    if |a| > 0 {
      SameKeysSameHead(a, b);
      SameKeysSameTails(a, b);
      assert SortedDesc(a[1..]) && SortedDesc(b[1..]);
      SortedUnique(a[1..], b[1..]);
      assert a == [a[0]] + a[1..] && b == [b[0]] + b[1..];
    }
  }

  /** The sort is the only descending arrangement that keeps every key's items
      in scan order: any such arrangement equals it. */
  lemma SortCharacterised(items: seq<Item>, r: seq<Item>)
    requires SortedDesc(r)
    requires forall k :: WithKey(r, k) == WithKey(items, k)
    ensures r == SortDesc(items)
  {
    forall k ensures WithKey(r, k) == WithKey(SortDesc(items), k) {
      SortStable(items, k);
    }
    SortedUnique(r, SortDesc(items));
  }

  /** `get_leaderboard`: the first five of the sorted scan; an empty board when
      the scan fails. */
  function GetLeaderboard(scan: Option<seq<Item>>): (board: seq<Item>)
    ensures scan.None? ==> board == []
    ensures scan.Some? ==> |board| == if |scan.value| < TopCount then |scan.value| else TopCount
    ensures scan.Some? ==> board == SortDesc(scan.value)[..|board|]
    ensures multiset(board) <= multiset(scan.GetOr([]))
    ensures SortedDesc(board)
  {
    match scan
    case None => []
    case Some(items) =>
      var sorted := SortDesc(items);
      var n := if |sorted| < TopCount then |sorted| else TopCount;
      assert sorted == sorted[..n] + sorted[n..];
      sorted[..n]
  }

  /** Nobody left off the board outscores anyone on it. */
  lemma TopScores(items: seq<Item>, x: Item)
    requires x in items
    ensures var board := GetLeaderboard(Some(items));
            x in board || forall i :: 0 <= i < |board| ==> Key(x) <= Key(board[i])
  {
    var sorted := SortDesc(items);
    SortedHas(items, x);
    var j :| 0 <= j < |sorted| && sorted[j] == x;
    var board := GetLeaderboard(Some(items));
    assert board == sorted[..|board|];
    if j < |board| {
      assert board[j] == x;
    } else {
      PrefixOutranks(sorted, |board|, j);
    }
  }

  /** Sorting loses no item. */
  lemma SortedHas(items: seq<Item>, x: Item)
    requires x in items
    ensures x in SortDesc(items)
  {
    assert x in multiset(items);
    assert x in multiset(SortDesc(items));
  }

  /** In a descending run, every item of a prefix outranks every later item. */
  lemma PrefixOutranks(s: seq<Item>, n: int, j: int)
    requires SortedDesc(s) && 0 <= n <= j < |s|
    ensures forall i :: 0 <= i < n ==> Key(s[j]) <= Key(s[..n][i])
  {
    forall i | 0 <= i < n ensures Key(s[j]) <= Key(s[..n][i]) {
      assert s[..n][i] == s[i];
    }
  }

  /** The index of the first item of `s` for `userId`. */
  function FirstIndex(s: seq<Item>, userId: string): (r: Option<nat>)
    ensures r.Some? ==> r.value < |s| && s[r.value].userId == userId
                        && forall j :: 0 <= j < r.value ==> s[j].userId != userId
    ensures r.None? <==> forall j :: 0 <= j < |s| ==> s[j].userId != userId
  {
    if |s| == 0 then None
    else if s[0].userId == userId then Some(0)
    else
      match FirstIndex(s[1..], userId)
      case None => None
      case Some(i) => Some(i + 1)
  }

  /** `get_user_rank`: the 1-based position of the user's first item in the
      sorted scan, with the item; `None` when absent or when the scan fails. */
  function GetUserRank(scan: Option<seq<Item>>, userId: string): (r: Option<(nat, Item)>)
    ensures scan.None? ==> r.None?
    ensures scan.Some? ==> (r.Some? <==> HasUser(scan.value, userId))
    ensures r.Some? ==> 1 <= r.value.0 <= |scan.value|
                        && r.value.1.userId == userId
                        && r.value.1 == SortDesc(scan.value)[r.value.0 - 1]
    ensures r.Some? ==> forall j :: 0 <= j < r.value.0 - 1 ==> SortDesc(scan.value)[j].userId != userId
  {
    match scan
    case None => None
    case Some(items) =>
      var sorted := SortDesc(items);
      SameUsers(items, userId);
      match FirstIndex(sorted, userId)
      case None => None
      case Some(i) => Some((i + 1, sorted[i]))
  }

  predicate HasUser(s: seq<Item>, userId: string) {
    exists j :: 0 <= j < |s| && s[j].userId == userId
  }

  /** A user present in one arrangement of the same items is present in the other. */
  lemma UserMoves(a: seq<Item>, b: seq<Item>, userId: string)
    requires multiset(a) == multiset(b) && HasUser(a, userId)
    ensures HasUser(b, userId)
  {
    var j :| 0 <= j < |a| && a[j].userId == userId;
    assert a[j] in multiset(b) by {
      assert a[j] in multiset(a);
    }
    var k :| 0 <= k < |b| && b[k] == a[j];
    assert b[k].userId == userId;
  }

  /** Sorting neither adds nor removes a user. */
  lemma SameUsers(items: seq<Item>, userId: string)
    ensures HasUser(items, userId) <==> HasUser(SortDesc(items), userId)
  {
    if HasUser(items, userId) {
      UserMoves(items, SortDesc(items), userId);
    }
    if HasUser(SortDesc(items), userId) {
      UserMoves(SortDesc(items), items, userId);
    }
  }

  /** A user ranked within the top five is the board's entry at that position. */
  lemma RankOnBoard(scan: Option<seq<Item>>, userId: string)
    requires GetUserRank(scan, userId).Some? && GetUserRank(scan, userId).value.0 <= TopCount
    ensures var (rank, item) := GetUserRank(scan, userId).value;
            rank <= |GetLeaderboard(scan)| && GetLeaderboard(scan)[rank - 1] == item
  {
    var (rank, item) := GetUserRank(scan, userId).value;
    var sorted := SortDesc(scan.value);
    var board := GetLeaderboard(scan);
    assert board == sorted[..|board|];
    assert rank <= |board|;
    assert board[rank - 1] == sorted[rank - 1];
  }
}

=== FILE: ledger.dfy ===
/** The scores table: one item per user, updated by DynamoDB `ADD` and `SET`
    expressions when an answer is graded. */
module Ledger {
  import opened Wrappers

  /** A user's item. An attribute DynamoDB has never set is absent (`None`). */
  datatype Attrs = Attrs(score: Option<int>, total: Option<int>, lastUpdated: Option<int>)

  /** The table, keyed by `user_id`. */
  type Table = map<string, Attrs>

  const NoAttrs: Attrs := Attrs(None, None, None)

  /** The item stored for `userId`, or an item with no attributes. */
  function Lookup(t: Table, userId: string): Attrs {
    if userId in t then t[userId] else NoAttrs
  }

  /** `int(x.get('score', 0))`: an absent score reads as 0. */
  function Score(a: Attrs): int {
    a.score.GetOr(0)
  }

  /** `int(x.get('total_questions', 0))`. */
  function Total(a: Attrs): int {
    a.total.GetOr(0)
  }

  /** Python's `int()` of a float: truncation toward zero. */
  function Truncate(r: real): (n: int)
    ensures r >= 0.0 ==> 0 <= n && n as real <= r < n as real + 1.0
    ensures r < 0.0 ==> n <= 0 && n as real - 1.0 < r <= n as real
  {
    if r >= 0.0 then r.Floor else -((-r).Floor)
  }

  /** `ADD attr :n`: an absent attribute counts as 0. */
  function Add(v: Option<int>, n: int): Option<int> {
    Some(v.GetOr(0) + n)
  }

  /** `update_user_score`: `ADD score :inc` only for a correct answer,
      `ADD total_questions :one` always, `SET last_updated` to the truncated
      clock. Returns the new table and the item's new attributes (`ALL_NEW`). */
  function UpdateUserScore(t: Table, userId: string, correct: bool, now: real): (r: (Table, Attrs))
    ensures userId in r.0 && r.0[userId] == r.1
    ensures r.0.Keys == t.Keys + {userId}
    ensures forall u :: u in t && u != userId ==> r.0[u] == t[u]
    ensures Total(r.1) == Total(Lookup(t, userId)) + 1
    ensures Score(r.1) == Score(Lookup(t, userId)) + (if correct then 1 else 0)
    ensures !correct ==> r.1.score == Lookup(t, userId).score
    ensures r.1.lastUpdated == Some(Truncate(now))
  {
    var prev := Lookup(t, userId);
    var item := Attrs(if correct then Add(prev.score, 1) else prev.score,
                      Add(prev.total, 1),
                      Some(Truncate(now)));
    (t[userId := item], item)
  }

  /** The update as the handler sees it: when the store call fails the table is
      unchanged and no attributes come back. */
  function RecordAnswer(t: Table, userId: string, correct: bool, now: real, stored: bool): (r: (Table, Option<Attrs>))
    ensures !stored ==> r == (t, None)
    ensures stored ==> userId in r.0 && r.1 == Some(r.0[userId])
    ensures stored ==> Total(r.0[userId]) == Total(Lookup(t, userId)) + 1
    ensures stored ==> Score(r.0[userId]) == Score(Lookup(t, userId)) + (if correct then 1 else 0)
    ensures stored ==> r.0[userId].lastUpdated == Some(Truncate(now))
    ensures forall u :: u != userId ==> Lookup(r.0, u) == Lookup(t, u)
  {
    if stored then
      var (t', a) := UpdateUserScore(t, userId, correct, now);
      (t', Some(a))
    else (t, None)
  }

  /** A score never exceeds the number of questions answered. */
  predicate Consistent(a: Attrs) {
    0 <= Score(a) <= Total(a)
  }

  predicate TableConsistent(t: Table) {
    forall u :: u in t ==> Consistent(t[u])
  }

  lemma UpdateKeepsConsistent(t: Table, userId: string, correct: bool, now: real)
    requires TableConsistent(t)
    ensures TableConsistent(UpdateUserScore(t, userId, correct, now).0)
  {
    var t' := UpdateUserScore(t, userId, correct, now).0;
    forall u | u in t' ensures Consistent(t'[u]) {
      if u != userId {
        assert u in t;
      } else {
        assert Consistent(Lookup(t, userId));
      }
    }
  }

  /** Updates stamped with the same second commute: the table does not depend
      on the order in which two answers are recorded. */
  lemma UpdatesCommute(t: Table, u1: string, c1: bool, now1: real, u2: string, c2: bool, now2: real)
    requires Truncate(now1) == Truncate(now2)
    ensures UpdateUserScore(UpdateUserScore(t, u1, c1, now1).0, u2, c2, now2).0
         == UpdateUserScore(UpdateUserScore(t, u2, c2, now2).0, u1, c1, now1).0
  {
  }

  /** A first wrong answer leaves the score absent, which reads as 0. */
  lemma FirstWrongAnswer(userId: string, now: real)
    ensures var a := UpdateUserScore(map[], userId, false, now).1;
            a.score == None && Score(a) == 0 && a.total == Some(1)
  {
  }

  /** A right then a wrong answer from scratch: one point out of two. */
  lemma RightThenWrong(userId: string, now: real)
    ensures var a := UpdateUserScore(UpdateUserScore(map[], userId, true, now).0, userId, false, now).1;
            a.score == Some(1) && a.total == Some(2)
  {
  }

  /** An answer: who pressed a button and whether it was graded correct. */
  datatype Answer = Answer(userId: string, correct: bool)

  /** The table after recording each answer in turn. */
  function Replay(t: Table, answers: seq<Answer>, now: real): Table
    decreases |answers|
  {
    if |answers| == 0 then t
    else Replay(UpdateUserScore(t, answers[0].userId, answers[0].correct, now).0, answers[1..], now)
  }

  /** How many of `answers` are by `userId`, and how many of those are correct. */
  function AnsweredBy(answers: seq<Answer>, userId: string): nat {
    if |answers| == 0 then 0
    else (if answers[0].userId == userId then 1 else 0) + AnsweredBy(answers[1..], userId)
  }

  function CorrectBy(answers: seq<Answer>, userId: string): nat {
    if |answers| == 0 then 0
    else (if answers[0].userId == userId && answers[0].correct then 1 else 0) + CorrectBy(answers[1..], userId)
  }

  /** After a run of answers each user's total has grown by the answers they
      gave and their score by the correct ones; nobody else's item exists anew. */
  lemma {:induction false} ReplayCounts(t: Table, answers: seq<Answer>, now: real, userId: string)
    ensures Total(Lookup(Replay(t, answers, now), userId)) == Total(Lookup(t, userId)) + AnsweredBy(answers, userId)
    ensures Score(Lookup(Replay(t, answers, now), userId)) == Score(Lookup(t, userId)) + CorrectBy(answers, userId)
    ensures AnsweredBy(answers, userId) == 0 ==> Lookup(Replay(t, answers, now), userId) == Lookup(t, userId)
    decreases |answers|
  {
    if |answers| > 0 {
      var t' := UpdateUserScore(t, answers[0].userId, answers[0].correct, now).0;
      ReplayCounts(t', answers[1..], now, userId);
    }
  }

  /** The accuracy shown next to a score: `None` where the message shows "0%"
      because nothing was answered, otherwise the percentage. */
  function Accuracy(a: Attrs): (p: Option<real>)
    ensures p.None? <==> Total(a) <= 0
    ensures Consistent(a) && p.Some? ==> 0.0 <= p.value <= 100.0
    ensures p.Some? && Score(a) == Total(a) ==> p.value == 100.0
  {
    if Total(a) > 0 then Some(Score(a) as real / Total(a) as real * 100.0) else None
  }
}

=== FILE: pyint.dfy ===
/** Python's `int(text)` in base 10 and its inverse `str(n)`. */
module PyInt {
  import opened Wrappers
  import opened Text

  predicate IsDigit(c: char) {
    '0' <= c <= '9'
  }

  /** Digits with single underscores allowed between two digits (`1_000`), as `int()` accepts:
      digits and underscores only, a digit at both ends, never two underscores in a row. */
  predicate DigitGroup(s: string) {
    && |s| > 0
    && IsDigit(s[0]) && IsDigit(s[|s| - 1])
    && (forall i :: 0 <= i < |s| ==> IsDigit(s[i]) || s[i] == '_')
    && (forall i :: 0 <= i < |s| - 1 ==> IsDigit(s[i]) || IsDigit(s[i + 1]))
  }

  /** The decimal value of a digit group, underscores ignored. */
  function GroupValue(s: string): (n: nat)
  {
    if |s| == 0 then 0
    else if IsDigit(s[|s| - 1]) then GroupValue(s[..|s| - 1]) * 10 + (s[|s| - 1] as int - '0' as int)
    else GroupValue(s[..|s| - 1])
  }

  /** The default `sys.get_int_max_str_digits()`: `int()` refuses a numeral
      with more digits than this. */
  const MaxStrDigits: nat := 4300

  /** The information separators U+001C..U+001F. `str.isspace` counts them as
      whitespace, but `int()` leaves ASCII characters untouched and then skips
      only the C-locale spaces, so a separator anywhere makes `int()` fail. */
  predicate IsSeparator(c: char) {
    0x1C <= c as int <= 0x1F
  }

  /** The number of digits in a numeral, underscores not counted. */
  function CountDigits(s: string): (n: nat)
    ensures n <= |s|
  {
    if |s| == 0 then 0
    else CountDigits(s[..|s| - 1]) + (if IsDigit(s[|s| - 1]) then 1 else 0)
  }

  predicate HasSeparator(text: string) {
    exists i :: 0 <= i < |text| && IsSeparator(text[i])
  }

  /** A stripped numeral: an optional sign, then a digit group of at most
      `MaxStrDigits` digits. */
  function ParseNumeral(t: string): Option<int>
  {
    var negative := |t| > 0 && t[0] == '-';
    var unsigned := if |t| > 0 && (t[0] == '-' || t[0] == '+') then t[1..] else t;
    if DigitGroup(unsigned) && CountDigits(unsigned) <= MaxStrDigits then
      var magnitude: int := GroupValue(unsigned);
      Some(if negative then -magnitude else magnitude)
    else None
  }

  /** `int(text)`: surrounding whitespace, an optional sign, then a digit group
      of at most `MaxStrDigits` digits; `None` where Python raises `ValueError`.
      Only ASCII digits are read. */
  function ParseInt(text: string): (r: Option<int>)
    ensures HasSeparator(text) ==> r.None?
  {
    if HasSeparator(text) then None else ParseNumeral(Strip(text))
  }

  /** A separator next to the digits is not skipped: `int('\x1c5')` raises. */
  lemma SeparatorRejected()
    ensures ParseInt([0x1C as char, '5']) == None
    ensures ParseInt(" 5 ") == Some(5)
  {
    var s := [0x1C as char, '5'];
    assert IsSeparator(s[0]);
    assert Strip(" 5 ") == "5" by {
      assert TrimLeft(" 5 ") == "5 ";
      assert TrimRight("5 ") == "5";
    }
    assert DigitGroup("5");
  }

  /** A numeral of every-digit text counts all its characters. */
  lemma {:induction false} CountAllDigits(s: string)
    requires forall i :: 0 <= i < |s| ==> IsDigit(s[i])
    ensures CountDigits(s) == |s|
  {
    if |s| > 0 {
      CountAllDigits(s[..|s| - 1]);
    }
  }

  /** A numeral past the digit limit is refused even though its digits are valid. */
  lemma TooManyDigits(digits: string)
    requires |digits| > MaxStrDigits
    requires forall i :: 0 <= i < |digits| ==> IsDigit(digits[i])
    ensures ParseInt(digits) == None
  {
    CountAllDigits(digits);
    if |digits| > 0 {
      assert !IsSpace(digits[0]) && !IsSpace(digits[|digits| - 1]);
    }
    assert Strip(digits) == digits;
  }

  /** Text made of ASCII digits only. */
  predicate AllDigits(s: string) {
    forall i :: 0 <= i < |s| ==> IsDigit(s[i])
  }

  /** Text of digits and underscores with a digit at each end is its own strip
      and has no separator. */
  lemma BareNumeral(s: string)
    requires |s| > 0 && IsDigit(s[0]) && IsDigit(s[|s| - 1])
    requires forall i :: 0 <= i < |s| ==> IsDigit(s[i]) || s[i] == '_'
    ensures !HasSeparator(s) && Strip(s) == s
  {
    assert !IsSpace(s[0]) && !IsSpace(s[|s| - 1]);
  }

  /** An underscore is skipped by the value. */
  lemma {:induction false} GroupValueUnderscore(a: string, b: string)
    ensures GroupValue(a + "_" + b) == GroupValue(a + b)
  {
    if |b| == 0 {
      assert (a + "_" + b)[..|a + "_" + b| - 1] == a;
      assert a + b == a;
    } else {
      var b' := b[..|b| - 1];
      assert (a + "_" + b)[..|a + "_" + b| - 1] == a + "_" + b';
      assert (a + b)[..|a + b| - 1] == a + b';
      GroupValueUnderscore(a, b');
    }
  }

  /** An underscore is not counted as a digit. */
  lemma {:induction false} CountDigitsUnderscore(a: string, b: string)
    ensures CountDigits(a + "_" + b) == CountDigits(a + b)
  {
    if |b| == 0 {
      assert (a + "_" + b)[..|a + "_" + b| - 1] == a;
      assert a + b == a;
    } else {
      var b' := b[..|b| - 1];
      assert (a + "_" + b)[..|a + "_" + b| - 1] == a + "_" + b';
      assert (a + b)[..|a + b| - 1] == a + b';
      CountDigitsUnderscore(a, b');
    }
  }

  /** `int('+' + str(n)) == n`: a leading plus sign is accepted. */
  lemma PlusSign(n: nat)
    requires Showable(n)
    ensures ParseInt("+" + Show(n)) == Some(n)
  {
    var s := "+" + Show(n);
    assert s[1..] == ShowNat(n);
    CountAllDigits(ShowNat(n));
    GroupValueShowNat(n);
    assert forall i :: 0 <= i < |s| ==> IsDigit(s[i]) || s[i] == '+';
    assert !IsSpace(s[0]) && !IsSpace(s[|s| - 1]);
  }

  /** Two runs of digits joined by one underscore form a digit group. */
  lemma UnderscoreGroup(d1: string, d2: string)
    requires |d1| > 0 && |d2| > 0 && AllDigits(d1) && AllDigits(d2)
    ensures DigitGroup(d1 + "_" + d2)
  {
    var u := d1 + "_" + d2;
    forall i | 0 <= i < |u|
      ensures IsDigit(u[i]) || u[i] == '_'
    {
      if i < |d1| {
        assert u[i] == d1[i];
      } else if i > |d1| {
        assert u[i] == d2[i - |d1| - 1];
      }
    }
    forall i | 0 <= i < |u| - 1
      ensures IsDigit(u[i]) || IsDigit(u[i + 1])
    {
      if i < |d1| {
        assert u[i] == d1[i];
      } else {
        assert u[i + 1] == d2[i - |d1|];
      }
    }
    assert u[0] == d1[0] && u[|u| - 1] == d2[|d2| - 1];
  }

  /** Two runs of digits side by side form a digit group. */
  lemma ConcatGroup(d1: string, d2: string)
    requires |d1| > 0 && AllDigits(d1) && AllDigits(d2)
    ensures DigitGroup(d1 + d2) && AllDigits(d1 + d2)
  {
    var p := d1 + d2;
    forall i | 0 <= i < |p|
      ensures IsDigit(p[i])
    {
      if i < |d1| {
        assert p[i] == d1[i];
      } else {
        assert p[i] == d2[i - |d1|];
      }
    }
  }

  /** A single underscore between two runs of digits is accepted and ignored:
      `int('1_000') == int('1000')`. */
  lemma UnderscoreBetweenDigits(d1: string, d2: string)
    requires |d1| > 0 && |d2| > 0 && AllDigits(d1) && AllDigits(d2)
    ensures ParseInt(d1 + "_" + d2) == ParseInt(d1 + d2)
    ensures CountDigits(d1 + d2) <= MaxStrDigits ==> ParseInt(d1 + d2).Some?
  {
    var u := d1 + "_" + d2;
    var p := d1 + d2;
    UnderscoreGroup(d1, d2);
    ConcatGroup(d1, d2);
    BareNumeral(u);
    BareNumeral(p);
    GroupValueUnderscore(d1, d2);
    CountDigitsUnderscore(d1, d2);
    assert u[0] == d1[0] && p[0] == d1[0];
  }

  /** Two underscores in a row are refused: `int('1__000')` raises. */
  lemma DoubleUnderscoreRejected(d1: string, d2: string)
    requires AllDigits(d1) && AllDigits(d2)
    ensures ParseInt(d1 + "__" + d2) == None
  {
    var u := d1 + "__" + d2;
    assert u[|d1|] == '_' && u[|d1| + 1] == '_';
    assert !IsSpace(u[0]) && !IsSpace(u[|u| - 1]);
    assert forall i :: 0 <= i < |u| ==> IsDigit(u[i]) || u[i] == '_';
    assert !DigitGroup(u);
  }

  /** An underscore at either end of the digits is refused: `int('_1')` and
      `int('1_')` raise. */
  lemma EdgeUnderscoreRejected(d: string)
    requires AllDigits(d)
    ensures ParseInt("_" + d) == None
    ensures ParseInt(d + "_") == None
  {
    var l := "_" + d;
    var r := d + "_";
    assert !IsSpace(l[0]) && !IsSpace(l[|l| - 1]);
    assert !IsSpace(r[0]) && !IsSpace(r[|r| - 1]);
    assert forall i :: 0 <= i < |l| ==> !IsSeparator(l[i]);
    assert forall i :: 0 <= i < |r| ==> !IsSeparator(r[i]);
  }

  /** Every character an accepted numeral can contain. */
  predicate NumeralChar(c: char) {
    IsSpace(c) || IsDigit(c) || c == '_' || c == '+' || c == '-'
  }

  /** `str(n)` for a natural number: decimal digits, no leading zero. */
  function ShowNat(n: nat): (s: string)
    ensures |s| > 0 && IsDigit(s[0])
    ensures forall i :: 0 <= i < |s| ==> IsDigit(s[i])
  {
    if n < 10 then [('0' as int + n) as char]
    else ShowNat(n / 10) + [('0' as int + n % 10) as char]
  }

  /** `str(n)`. */
  function Show(n: int): (s: string)
  {
    if n < 0 then "-" + ShowNat(-n) else ShowNat(n)
  }

  lemma {:induction false} GroupValueShowNat(n: nat)
    ensures GroupValue(ShowNat(n)) == n
  {
    if n >= 10 {
      var s := ShowNat(n);
      assert s[..|s| - 1] == ShowNat(n / 10);
      GroupValueShowNat(n / 10);
    }
  }

  /** `str(n)` succeeds: its digits are within `MaxStrDigits`. */
  predicate Showable(n: int) {
    |ShowNat(if n < 0 then -n else n)| <= MaxStrDigits
  }

  /** `int(str(n)) == n` whenever `str(n)` itself succeeds. */
  lemma ParseShow(n: int)
    requires Showable(n)
    ensures ParseInt(Show(n)) == Some(n)
  {
    ShowIsBare(n);
    NumeralShow(n);
  }

  /** `str(n)` has no separator and no surrounding whitespace. */
  lemma ShowIsBare(n: int)
    ensures !HasSeparator(Show(n)) && Strip(Show(n)) == Show(n)
  {
    var s := Show(n);
    assert forall i :: 0 <= i < |s| ==> IsDigit(s[i]) || s[i] == '-';
    assert !IsSpace(s[0]) && !IsSpace(s[|s| - 1]);
  }

  lemma NumeralShow(n: int)
    requires Showable(n)
    ensures ParseNumeral(Show(n)) == Some(n)
  {
    var s := Show(n);
    var digits := ShowNat(if n < 0 then -n else n);
    CountAllDigits(digits);
    assert DigitGroup(digits);
    GroupValueShowNat(if n < 0 then -n else n);
    if n < 0 {
      assert s[1..] == digits;
    }
  }

  /** A text `int()` accepts consists of whitespace, signs, digits and underscores only. */
  lemma ParsedChars(text: string)
    requires ParseInt(text).Some?
    ensures forall i :: 0 <= i < |text| ==> NumeralChar(text[i])
  {
    var t := Strip(text);
    assert ParseNumeral(t).Some?;
    var unsigned := if |t| > 0 && (t[0] == '-' || t[0] == '+') then t[1..] else t;
    assert DigitGroup(unsigned);
    if unsigned != t {
      assert t == [t[0]] + unsigned;
    }
    StrippedChars(text);
  }

  lemma StrippedChars(text: string)
    requires forall i :: 0 <= i < |Strip(text)| ==> NumeralChar(Strip(text)[i])
    ensures forall i :: 0 <= i < |text| ==> NumeralChar(text[i])
  {
    var t := Strip(text);
    StripInfix(text);
    var lead := |text| - |TrimLeft(text)|;
    forall i | 0 <= i < |text|
      ensures NumeralChar(text[i])
    {
      if lead <= i < lead + |t| {
        assert text[i] == t[i - lead];
      }
    }
  }

  /** A text `int()` accepts never contains a colon: the signature base string
      `v0:<timestamp>:<body>` can therefore be split unambiguously. */
  lemma ParsedHasNoColon(text: string)
    requires ParseInt(text).Some?
    ensures ':' !in text
  {
    ParsedChars(text);
  }
}

=== FILE: quiz.dfy ===
/** The question provider: the line parser for the generator's text
    (`parse_quiz_content`), the fixed fallback (`get_fallback_question`) and the
    choice between them (`generate_quiz_question`). */
module QuizParser {
  import opened Wrappers
  import opened Text

  /** A parsed question. `options` keep their `A.`..`D.` prefix. */
  datatype Quiz = Quiz(question: string, options: seq<string>, correctAnswer: string, explanation: string)

  const QuestionPrefix: string := "問題："
  const AnswerPrefix: string := "正解："
  const ExplanationPrefix: string := "解説："

  /** The parser's starting point: every field empty. */
  const Blank: Quiz := Quiz("", [], "", "")

  /** `line.startswith(('A.', 'B.', 'C.', 'D.'))` */
  predicate IsOptionLine(line: string) {
    |line| >= 2 && IsLabel(line[0]) && line[1] == '.'
  }

  /** The four option labels. */
  predicate IsLabel(c: char) {
    c == 'A' || c == 'B' || c == 'C' || c == 'D'
  }

  predicate OptionsWellFormed(options: seq<string>) {
    forall i :: 0 <= i < |options| ==> IsOptionLine(options[i])
  }

  /** Whether the stripped line carries `prefix`. */
  predicate Carries(raw: string, prefix: string) {
    StartsWith(Strip(raw), prefix)
  }

  /** The text after a three-character prefix (`line[3:]`). */
  function AfterPrefix(line: string): string {
    if |line| >= 3 then line[3..] else ""
  }

  /** One iteration of the parser's loop: strip the line, then the first
      matching branch updates its field; any other line is ignored. */
  function ParseLine(q: Quiz, raw: string): Quiz {
    var line := Strip(raw);
    if StartsWith(line, QuestionPrefix) then q.(question := AfterPrefix(line))
    else if IsOptionLine(line) then q.(options := q.options + [line])
    else if StartsWith(line, AnswerPrefix) then q.(correctAnswer := Strip(AfterPrefix(line)))
    else if StartsWith(line, ExplanationPrefix) then q.(explanation := AfterPrefix(line))
    else q
  }

  /** The loop over `lines`, starting from `q`. */
  function ParseLines(q: Quiz, lines: seq<string>): Quiz {
    if |lines| == 0 then q
    else ParseLine(ParseLines(q, lines[..|lines| - 1]), lines[|lines| - 1])
  }

  /** `content.strip().split('\n')` */
  function ContentLines(content: string): (lines: seq<string>)
    ensures |lines| >= 1
  {
    Split(Strip(content))
  }

  /** `parse_quiz_content`: never fails; an incomplete text gives a partially filled quiz. */
  function ParseQuizContent(content: string): (q: Quiz)
    ensures OptionsWellFormed(q.options)
  {
    var lines := ContentLines(content);
    ParseOptions(Blank, lines);
    ParseLines(Blank, lines)
  }

  /** The line itself, stripped, when it is an option line; nothing otherwise. */
  function OptionOf(raw: string): (kept: seq<string>)
    ensures |kept| <= 1
    ensures OptionsWellFormed(kept)
  {
    var line := Strip(raw);
    if IsOptionLine(line) then [line] else []
  }

  /** Reference definition of the options: the stripped option lines, front to back. */
  function OptionLines(lines: seq<string>): (opts: seq<string>)
    ensures |opts| <= |lines|
    ensures OptionsWellFormed(opts)
  {
    if |lines| == 0 then [] else OptionOf(lines[0]) + OptionLines(lines[1..])
  }

  lemma {:induction false} OptionLinesAppend(a: seq<string>, b: seq<string>)
    ensures OptionLines(a + b) == OptionLines(a) + OptionLines(b)
  {
    if |a| > 0 {
      assert (a + b)[1..] == a[1..] + b;
      OptionLinesAppend(a[1..], b);
      calc {
        OptionLines(a + b);
        OptionOf(a[0]) + OptionLines(a[1..] + b);
        OptionOf(a[0]) + (OptionLines(a[1..]) + OptionLines(b));
        (OptionOf(a[0]) + OptionLines(a[1..])) + OptionLines(b);
      }
    } else {
      assert a + b == b;
    }
  }

  lemma ParseLastOptions(q: Quiz, lines: seq<string>)
    requires |lines| > 0
    ensures ParseLines(q, lines).options
            == ParseLines(q, lines[..|lines| - 1]).options + OptionOf(lines[|lines| - 1])
  {
    PrefixesDisjoint(Strip(lines[|lines| - 1]));
  }

  lemma OptionLinesLast(lines: seq<string>)
    requires |lines| > 0
    ensures OptionLines(lines) == OptionLines(lines[..|lines| - 1]) + OptionOf(lines[|lines| - 1])
  {
    var init, last := lines[..|lines| - 1], lines[|lines| - 1];
    assert init + [last] == lines;
    OptionLinesAppend(init, [last]);
    assert OptionLines([last]) == OptionOf(last);
  }

  /** The options the parser collects are exactly the stripped option lines, in input order. */
  lemma {:induction false} ParseOptions(q: Quiz, lines: seq<string>)
    ensures ParseLines(q, lines).options == q.options + OptionLines(lines)
  {
    if |lines| > 0 {
      var init, last := lines[..|lines| - 1], lines[|lines| - 1];
      ParseOptions(q, init);
      ParseLastOptions(q, lines);
      OptionLinesLast(lines);
      assert (q.options + OptionLines(init)) + OptionOf(last)
          == q.options + (OptionLines(init) + OptionOf(last));
    }
  }

  /** Line `i` is the last line carrying `prefix`. */
  predicate LastCarrier(lines: seq<string>, prefix: string, i: int) {
    && 0 <= i < |lines|
    && Carries(lines[i], prefix)
    && forall j :: i < j < |lines| ==> !Carries(lines[j], prefix)
  }

  predicate NoCarrier(lines: seq<string>, prefix: string) {
    forall j :: 0 <= j < |lines| ==> !Carries(lines[j], prefix)
  }

  lemma PrefixesDisjoint(line: string)
    ensures StartsWith(line, QuestionPrefix) ==> !IsOptionLine(line)
    ensures StartsWith(line, AnswerPrefix) ==>
              !StartsWith(line, QuestionPrefix) && !IsOptionLine(line)
    ensures StartsWith(line, ExplanationPrefix) ==>
              !StartsWith(line, QuestionPrefix) && !IsOptionLine(line) && !StartsWith(line, AnswerPrefix)
  {
  }

  /** The three scalar fields of a quiz. */
  datatype Scalar = QuestionField | AnswerField | ExplanationField {

    function Prefix(): string {
      match this
      case QuestionField => QuestionPrefix
      case AnswerField => AnswerPrefix
      case ExplanationField => ExplanationPrefix
    }

    function Of(q: Quiz): string {
      match this
      case QuestionField => q.question
      case AnswerField => q.correctAnswer
      case ExplanationField => q.explanation
    }

    /** What a carrier line contributes: the text after the prefix, stripped again
        for the answer. */
    function Extract(line: string): string {
      if AnswerField? then Strip(AfterPrefix(line)) else AfterPrefix(line)
    }
  }

  lemma ParseLastField(q: Quiz, lines: seq<string>, f: Scalar)
    requires |lines| > 0
    ensures var last := lines[|lines| - 1];
            f.Of(ParseLines(q, lines))
            == if Carries(last, f.Prefix()) then f.Extract(Strip(last))
               else f.Of(ParseLines(q, lines[..|lines| - 1]))
  {
    PrefixesDisjoint(Strip(lines[|lines| - 1]));
  }

  /** A scalar field no line carries keeps its starting value. */
  lemma {:induction false} ParseFieldAbsent(q: Quiz, lines: seq<string>, f: Scalar)
    requires NoCarrier(lines, f.Prefix())
    ensures f.Of(ParseLines(q, lines)) == f.Of(q)
  {
    if |lines| > 0 {
      var n := |lines| - 1;
      assert !Carries(lines[n], f.Prefix());
      assert NoCarrier(lines[..n], f.Prefix());
      ParseLastField(q, lines, f);
      ParseFieldAbsent(q, lines[..n], f);
    }
  }

  /** Last line wins: a scalar field holds what the last line carrying its prefix contributes. */
  lemma {:induction false} ParseFieldLast(q: Quiz, lines: seq<string>, f: Scalar, i: int)
    requires LastCarrier(lines, f.Prefix(), i)
    ensures f.Of(ParseLines(q, lines)) == f.Extract(Strip(lines[i]))
  {
    var n := |lines| - 1;
    ParseLastField(q, lines, f);
    if i < n {
      var init := lines[..n];
      assert !Carries(lines[n], f.Prefix());
      assert init[i] == lines[i];
      assert LastCarrier(init, f.Prefix(), i);
      ParseFieldLast(q, init, f, i);
    }
  }

  /** Last line wins, for each of the question, the answer and the explanation. */
  lemma ParseScalars(q: Quiz, lines: seq<string>)
    ensures NoCarrier(lines, QuestionPrefix) ==> ParseLines(q, lines).question == q.question
    ensures NoCarrier(lines, AnswerPrefix) ==> ParseLines(q, lines).correctAnswer == q.correctAnswer
    ensures NoCarrier(lines, ExplanationPrefix) ==> ParseLines(q, lines).explanation == q.explanation
    ensures forall i :: LastCarrier(lines, QuestionPrefix, i) ==>
              ParseLines(q, lines).question == AfterPrefix(Strip(lines[i]))
    ensures forall i :: LastCarrier(lines, AnswerPrefix, i) ==>
              ParseLines(q, lines).correctAnswer == Strip(AfterPrefix(Strip(lines[i])))
    ensures forall i :: LastCarrier(lines, ExplanationPrefix, i) ==>
              ParseLines(q, lines).explanation == AfterPrefix(Strip(lines[i]))
  {
    if NoCarrier(lines, QuestionPrefix) {
      ParseFieldAbsent(q, lines, QuestionField);
    }
    if NoCarrier(lines, AnswerPrefix) {
      ParseFieldAbsent(q, lines, AnswerField);
    }
    if NoCarrier(lines, ExplanationPrefix) {
      ParseFieldAbsent(q, lines, ExplanationField);
    }
    forall i | LastCarrier(lines, QuestionPrefix, i)
      ensures ParseLines(q, lines).question == AfterPrefix(Strip(lines[i]))
    {
      ParseFieldLast(q, lines, QuestionField, i);
    }
    forall i | LastCarrier(lines, AnswerPrefix, i)
      ensures ParseLines(q, lines).correctAnswer == Strip(AfterPrefix(Strip(lines[i])))
    {
      ParseFieldLast(q, lines, AnswerField, i);
    }
    forall i | LastCarrier(lines, ExplanationPrefix, i)
      ensures ParseLines(q, lines).explanation == AfterPrefix(Strip(lines[i]))
    {
      ParseFieldLast(q, lines, ExplanationField, i);
    }
  }

  /** Parsing a concatenation continues from where the first part left off. */
  lemma {:induction false} ParseLinesAppend(q: Quiz, a: seq<string>, b: seq<string>)
    ensures ParseLines(q, a + b) == ParseLines(ParseLines(q, a), b)
    decreases |b|
  {
    if |b| == 0 {
      assert a + b == a;
    } else {
      assert (a + b)[..|a + b| - 1] == a + b[..|b| - 1];
      ParseLinesAppend(q, a, b[..|b| - 1]);
    }
  }

  /** A line matching no prefix can be dropped from anywhere without changing the result. */
  lemma UnrecognisedLineIgnored(a: seq<string>, x: string, b: seq<string>)
    requires !Carries(x, QuestionPrefix) && !IsOptionLine(Strip(x))
    requires !Carries(x, AnswerPrefix) && !Carries(x, ExplanationPrefix)
    ensures ParseLines(Blank, a + [x] + b) == ParseLines(Blank, a + b)
  {
    ParseLinesAppend(Blank, a + [x], b);
    ParseLinesAppend(Blank, a, b);
    assert (a + [x])[..|a|] == a;
  }

  predicate SingleLine(s: string) {
    '\n' !in s
  }

  predicate RightStripped(s: string) {
    |s| == 0 || !IsSpace(s[|s| - 1])
  }

  /** A quiz the generator could have written line by line and the parser reads back:
      no field spans lines, no field ends in whitespace, options carry their label,
      and the answer has no surrounding whitespace. */
  predicate Renderable(q: Quiz) {
    && SingleLine(q.question) && RightStripped(q.question)
    && (forall i :: 0 <= i < |q.options| ==>
          IsOptionLine(q.options[i]) && SingleLine(q.options[i]) && RightStripped(q.options[i]))
    && SingleLine(q.correctAnswer) && Strip(q.correctAnswer) == q.correctAnswer
    && SingleLine(q.explanation) && RightStripped(q.explanation)
  }

  /** The generator's answer format: question line, option lines, answer line, explanation line. */
  function RenderLines(q: Quiz): seq<string> {
    [QuestionPrefix + q.question] + q.options + [AnswerPrefix + q.correctAnswer, ExplanationPrefix + q.explanation]
  }

  function Render(q: Quiz): string {
    Join(RenderLines(q))
  }

  /** A line made of a prefix and a field with no trailing whitespace survives stripping. */
  lemma PrefixedLineFixed(prefix: string, s: string)
    requires |prefix| == 3 && !IsSpace(prefix[0]) && !IsSpace(prefix[2])
    requires RightStripped(s)
    ensures Strip(prefix + s) == prefix + s
  {
    var x := prefix + s;
    assert !IsSpace(x[0]) by {
      assert x[0] == prefix[0];
    }
    assert !IsSpace(x[|x| - 1]) by {
      if |s| == 0 {
        assert x[|x| - 1] == prefix[2];
      } else {
        assert x[|x| - 1] == s[|s| - 1];
      }
    }
  }

  /** What the parser sees in a rendered scalar line: exactly its own prefix, then the field. */
  lemma ScalarLine(f: Scalar, field: string)
    requires SingleLine(field) && RightStripped(field)
    ensures var line := f.Prefix() + field;
            && SingleLine(line) && |line| > 0 && Strip(line) == line
            && (Carries(line, QuestionPrefix) <==> f.QuestionField?)
            && (Carries(line, AnswerPrefix) <==> f.AnswerField?)
            && (Carries(line, ExplanationPrefix) <==> f.ExplanationField?)
            && OptionOf(line) == []
            && AfterPrefix(line) == field
  {
    var line := f.Prefix() + field;
    PrefixedLineFixed(f.Prefix(), field);
    assert line[..3] == f.Prefix();
    assert line[3..] == field;
    assert line[0] == f.Prefix()[0];
  }

  /** What the parser sees in a rendered option line: an option and nothing else. */
  lemma OptionLine(o: string)
    requires IsOptionLine(o) && RightStripped(o) && SingleLine(o)
    ensures Strip(o) == o
    ensures !Carries(o, QuestionPrefix) && !Carries(o, AnswerPrefix) && !Carries(o, ExplanationPrefix)
    ensures OptionOf(o) == [o]
  {
    assert !IsSpace(o[0]);
  }

  lemma RenderLinesAt(q: Quiz, j: int)
    requires 0 <= j < |RenderLines(q)|
    ensures var n := |q.options|;
            RenderLines(q)[j]
            == if j == 0 then QuestionPrefix + q.question
               else if j <= n then q.options[j - 1]
               else if j == n + 1 then AnswerPrefix + q.correctAnswer
               else ExplanationPrefix + q.explanation
  {
  }

  lemma {:induction false} OptionLinesOfOptions(options: seq<string>)
    requires forall i :: 0 <= i < |options| ==> OptionOf(options[i]) == [options[i]]
    ensures OptionLines(options) == options
  {
    if |options| > 0 {
      OptionLinesOfOptions(options[1..]);
    }
  }

  /** The rendered lines of a renderable quiz: each is a single line, and only the
      first, the second-to-last and the last carry the question, answer and
      explanation prefixes respectively. */
  lemma RenderedLines(q: Quiz)
    requires Renderable(q)
    ensures var lines, n := RenderLines(q), |RenderLines(q)|;
            && (forall j :: 0 <= j < n ==> SingleLine(lines[j]))
            && (forall j :: 0 <= j < n ==> (Carries(lines[j], QuestionPrefix) <==> j == 0))
            && (forall j :: 0 <= j < n ==> (Carries(lines[j], AnswerPrefix) <==> j == n - 2))
            && (forall j :: 0 <= j < n ==> (Carries(lines[j], ExplanationPrefix) <==> j == n - 1))
  {
    var lines, n := RenderLines(q), |RenderLines(q)|;
    ScalarLine(QuestionField, q.question);
    ScalarLine(AnswerField, q.correctAnswer);
    ScalarLine(ExplanationField, q.explanation);
    forall j | 0 <= j < n
      ensures SingleLine(lines[j])
      ensures Carries(lines[j], QuestionPrefix) <==> j == 0
      ensures Carries(lines[j], AnswerPrefix) <==> j == n - 2
      ensures Carries(lines[j], ExplanationPrefix) <==> j == n - 1
    {
      RenderLinesAt(q, j);
      if 0 < j < n - 2 {
        OptionLine(q.options[j - 1]);
      }
    }
  }

  /** The rendered text splits back into its lines. */
  lemma RenderContentLines(q: Quiz)
    requires Renderable(q)
    ensures ContentLines(Render(q)) == RenderLines(q)
  {
    var lines := RenderLines(q);
    var n := |lines|;
    RenderedLines(q);
    ScalarLine(QuestionField, q.question);
    ScalarLine(ExplanationField, q.explanation);
    assert Strip(Render(q)) == Render(q) by {
      JoinLast(lines);
      assert lines[n - 1] == ExplanationPrefix + q.explanation;
      assert Render(q)[0] == lines[0][0];
    }
    SplitJoin(lines);
  }

  lemma QuestionLineHasNoOption(q: Quiz)
    requires SingleLine(q.question) && RightStripped(q.question)
    ensures OptionLines([QuestionPrefix + q.question]) == []
  {
    ScalarLine(QuestionField, q.question);
    assert [QuestionPrefix + q.question][1..] == [];
  }

  lemma ClosingLinesHaveNoOption(q: Quiz)
    requires SingleLine(q.correctAnswer) && RightStripped(q.correctAnswer)
    requires SingleLine(q.explanation) && RightStripped(q.explanation)
    ensures OptionLines([AnswerPrefix + q.correctAnswer, ExplanationPrefix + q.explanation]) == []
  {
    var tail := [AnswerPrefix + q.correctAnswer, ExplanationPrefix + q.explanation];
    ScalarLine(AnswerField, q.correctAnswer);
    ScalarLine(ExplanationField, q.explanation);
    assert tail[1..] == [tail[1]];
    assert tail[1..][1..] == [];
  }

  lemma RenderedOptionsKept(q: Quiz)
    requires Renderable(q)
    ensures OptionLines(q.options) == q.options
  {
    forall i | 0 <= i < |q.options|
      ensures OptionOf(q.options[i]) == [q.options[i]]
    {
      OptionLine(q.options[i]);
    }
    OptionLinesOfOptions(q.options);
  }

  /** The options read back from the rendered lines are the quiz's options. */
  lemma RenderOptions(q: Quiz)
    requires Renderable(q)
    ensures ParseLines(Blank, RenderLines(q)).options == q.options
  {
    var lines := RenderLines(q);
    var head := [QuestionPrefix + q.question];
    var tail := [AnswerPrefix + q.correctAnswer, ExplanationPrefix + q.explanation];
    assert Strip(q.correctAnswer) == q.correctAnswer;
    QuestionLineHasNoOption(q);
    ClosingLinesHaveNoOption(q);
    RenderedOptionsKept(q);
    assert lines == head + q.options + tail;
    OptionLinesAppend(head + q.options, tail);
    OptionLinesAppend(head, q.options);
    ParseOptions(Blank, lines);
  }

  /** The scalar fields read back from the rendered lines are the quiz's. */
  lemma RenderScalars(q: Quiz)
    requires Renderable(q)
    ensures var r := ParseLines(Blank, RenderLines(q));
            r.question == q.question && r.correctAnswer == q.correctAnswer && r.explanation == q.explanation
  {
    var lines := RenderLines(q);
    var n := |lines|;
    RenderedLines(q);
    ScalarLine(QuestionField, q.question);
    ScalarLine(AnswerField, q.correctAnswer);
    ScalarLine(ExplanationField, q.explanation);
    ParseScalars(Blank, lines);
    assert LastCarrier(lines, QuestionPrefix, 0);
    assert LastCarrier(lines, AnswerPrefix, n - 2);
    assert LastCarrier(lines, ExplanationPrefix, n - 1);
  }

  /** Round trip: the parser reads back every field of a quiz written in the
      generator's format. */
  lemma ParseRender(q: Quiz)
    requires Renderable(q)
    ensures ParseQuizContent(Render(q)) == q
  {
    RenderContentLines(q);
    RenderOptions(q);
    RenderScalars(q);
  }

  /** `get_fallback_question` */
  const Fallback: Quiz := Quiz(
    "AWS Lambda の最大実行時間はどのくらいですか？",
    ["A. 5分", "B. 15分", "C. 30分", "D. 1時間"],
    "B",
    "AWS Lambda 関数の最大実行時間は 15 分（900秒）です。")

  /** The fallback has the four options A to D in order, and its answer is the
      label of one of them (the second). */
  lemma FallbackShape()
    ensures |Fallback.options| == 4
    ensures OptionsWellFormed(Fallback.options)
    ensures forall i :: 0 <= i < 4 ==> Fallback.options[i][0] == "ABCD"[i]
    ensures Fallback.correctAnswer == Fallback.options[1][..1] == "B"
  {
  }

  lemma SingleLineConcat(a: string, b: string)
    requires SingleLine(a) && SingleLine(b)
    ensures SingleLine(a + b)
  {
  }

  lemma FallbackQuestionRenderable()
    ensures SingleLine(Fallback.question) && RightStripped(Fallback.question)
  {
    var a, b := "AWS Lambda の", "最大実行時間はどのくらいですか？";
    assert SingleLine(a);
    assert SingleLine(b);
    SingleLineConcat(a, b);
    assert Fallback.question == a + b;
  }

  lemma FallbackAnswerRenderable()
    ensures SingleLine(Fallback.correctAnswer) && Strip(Fallback.correctAnswer) == Fallback.correctAnswer
  {
    assert !IsSpace('B');
  }

  lemma FallbackExplanationRenderable()
    ensures SingleLine(Fallback.explanation) && RightStripped(Fallback.explanation)
  {
    var a, b, c, d := "AWS Lambda 関数の", "最大実行時間は", " 15 分", "（900秒）です。";
    assert SingleLine(a);
    assert SingleLine(b);
    assert SingleLine(c);
    assert SingleLine(d);
    SingleLineConcat(a, b);
    SingleLineConcat(c, d);
    SingleLineConcat(a + b, c + d);
    assert Fallback.explanation == (a + b) + (c + d);
  }

  lemma FallbackOptionsRenderable()
    ensures forall i :: 0 <= i < |Fallback.options| ==>
              IsOptionLine(Fallback.options[i]) && SingleLine(Fallback.options[i]) && RightStripped(Fallback.options[i])
  {
  }

  /** The fallback is in the generator's format. */
  lemma FallbackRenderable()
    ensures Renderable(Fallback)
  {
    FallbackQuestionRenderable();
    FallbackAnswerRenderable();
    FallbackExplanationRenderable();
    FallbackOptionsRenderable();
  }

  /** Parsing the fallback's rendering gives the fallback back. */
  lemma FallbackRoundTrip()
    ensures ParseQuizContent(Render(Fallback)) == Fallback
  {
    FallbackRenderable();
    ParseRender(Fallback);
  }

  /** `generate_quiz_question`: `generated` is the generator's text, `None` when the
      call raised. Only a failed call yields the fallback; any text, however
      incomplete, is parsed and returned as it is. */
  function Generate(generated: Option<string>): (q: Quiz)
    ensures OptionsWellFormed(q.options)
    ensures generated.None? ==> q == Fallback
    ensures generated.Some? ==> q == ParseQuizContent(generated.value)
  {
    match generated
    case None => FallbackShape(); Fallback
    case Some(text) => ParseQuizContent(text)
  }

  /** An empty generator reply yields the blank quiz, not the fallback. */
  lemma EmptyReplyIsNotReplaced()
    ensures Generate(Some("")) == Blank
    ensures Generate(Some("")) != Fallback
  {
    ParseOptions(Blank, ContentLines(""));
    ParseScalars(Blank, ContentLines(""));
  }
}

=== FILE: router.dfy ===
/** `lambda_handler` and the two request kinds it dispatches to: slash commands
    (form-encoded bodies) and button interactions (a JSON `payload` field). */
module Router {
  import opened Wrappers
  import opened Text
  import opened Signature
  import opened QuizParser
  import opened AnswerToken
  import opened Blocks
  import opened Ledger
  import opened Leaderboard

  const FormContentType: string := "application/x-www-form-urlencoded"
  const ContentTypeHeader: string := "content-type"
  const QuizCommand: string := "/awsquiz"
  const LeaderboardCommand: string := "/leaderboard"

  /** One element of the payload's `actions`; a missing key is `None`. */
  datatype Action = Action(actionId: Option<string>, value: Option<string>)

  /** The interaction payload: its `actions` and `user.id` (`None` when missing). */
  datatype Payload = Payload(actions: seq<Action>, userId: Option<string>)

  /** Everything outside the handler's own logic. `secret` is the signing secret
      (`None` when the lookup failed), `now` the clock, `mac` HMAC-SHA256,
      `parseForm` is `parse_qs`, `decodePayload` is `json.loads` of the payload
      (`None` where it raises or the shape is wrong), `generated` the model's
      reply (`None` when the call raised), `scan` the table scan (`None` when it
      raised), `stored` whether the update call succeeds. The clock is read
      twice: `now` for the replay window, `stamp` for `last_updated`. */
  datatype Env = Env(
    secret: Option<string>,
    now: real,
    stamp: real,
    mac: Mac,
    parseForm: string -> map<string, seq<string>>,
    decodePayload: string -> Option<Payload>,
    generated: Option<string>,
    scan: Option<seq<Item>>,
    stored: bool)

  /** What the handler returns. */
  datatype Reply =
    | Unauthorized
    | BadRequest
    | InternalError
    | NoReply
    | QuizMessage(message: Message)
    | Ranking(board: seq<Item>, rank: Option<(nat, Item)>)
    | AnswerResult(userId: string, correct: bool, correctAnswer: string, explanation: string, totals: Option<Attrs>)
  {
    /** The HTTP status; `NoReply` is the handler returning `None`. */
    function Status(): Option<int> {
      match this
      case Unauthorized => Some(401)
      case BadRequest => Some(400)
      case InternalError => Some(500)
      case NoReply => None
      case _ => Some(200)
    }
  }

  /** `{k: v[0] if v else '' for k, v in parse_qs(body).items()}` */
  function FormFields(form: map<string, seq<string>>): (fields: map<string, string>)
    ensures fields.Keys == form.Keys
    ensures forall k :: k in form && |form[k]| > 0 ==> fields[k] == form[k][0]
    ensures forall k :: k in form && |form[k]| == 0 ==> fields[k] == ""
  {
    map k | k in form :: if |form[k]| > 0 then form[k][0] else ""
  }

  /** `handle_slash_command`: `/awsquiz` sends a quiz, `/leaderboard` the
      ranking; any other command gets no reply. */
  function HandleSlashCommand(env: Env, fields: map<string, string>): (r: Reply)
    ensures r.QuizMessage? <==> Header(fields, "command") == QuizCommand
    ensures r.Ranking? <==> Header(fields, "command") == LeaderboardCommand
    ensures r.NoReply? <==> Header(fields, "command") != QuizCommand && Header(fields, "command") != LeaderboardCommand
    ensures r.Ranking? ==>
              && r.board == GetLeaderboard(env.scan)
              && r.rank == GetUserRank(env.scan, Header(fields, "user_id"))
    ensures r.QuizMessage? ==>
              var q := Generate(env.generated);
              && OptionsNonEmpty(q.options)
              && |r.message.buttons| == |q.options|
              && forall i :: 0 <= i < |q.options| ==>
                   && r.message.buttons[i].text == q.options[i]
                   && DecodeToken(r.message.buttons[i].value)
                      == Some(Token(Label(q.options[i]), q.correctAnswer, q.explanation, Header(fields, "user_id")))
    ensures r.QuizMessage? ==> r.message == CreateQuizBlocks(Generate(env.generated), Header(fields, "user_id"))
  {
    var command := Header(fields, "command");
    var userId := Header(fields, "user_id");
    if command == QuizCommand then
      var q := Generate(env.generated);
      WellFormedNonEmpty(q.options);
      ButtonTokens(q, userId);
      QuizMessage(CreateQuizBlocks(q, userId))
    else if command == LeaderboardCommand then
      Ranking(GetLeaderboard(env.scan), GetUserRank(env.scan, userId))
    else NoReply
  }

  /** The first action is an answer button: the payload has an action, a user
      and an action id starting with `quiz_answer_`. */
  predicate AnswerPress(payload: Payload) {
    && |payload.actions| > 0 && payload.userId.Some?
    && payload.actions[0].actionId.Some?
    && StartsWith(payload.actions[0].actionId.value, AnswerActionPrefix)
  }

  /** The first action is some other button: `handle_interaction` falls through
      and returns `None`. */
  predicate OtherPress(payload: Payload) {
    && |payload.actions| > 0 && payload.userId.Some?
    && payload.actions[0].actionId.Some?
    && !StartsWith(payload.actions[0].actionId.value, AnswerActionPrefix)
  }

  /** The token an answer button carries, when its value is present and decodes. */
  function PressedToken(payload: Payload): Option<Token>
    requires AnswerPress(payload)
  {
    match payload.actions[0].value
    case None => None
    case Some(value) => DecodeToken(value)
  }

  /** `handle_interaction`: grades the first action when it is an answer button
      and records the answer for the user who pressed it. Every missing field
      and every token that does not decode is an internal error. */
  function HandleInteraction(env: Env, t: Table, payload: Payload): (r: (Reply, Table))
    ensures r.0.InternalError? || r.0.NoReply? || r.0.AnswerResult?
    ensures r.0.NoReply? <==> OtherPress(payload)
    ensures r.0.AnswerResult? <==> AnswerPress(payload) && PressedToken(payload).Some?
    ensures r.1 == t || r.0.AnswerResult?
    ensures r.0.AnswerResult? ==>
              && payload.userId == Some(r.0.userId)
              && var token := PressedToken(payload).value;
              && r.0.correct == IsCorrect(token)
              && r.0.correctAnswer == token.correct
              && r.0.explanation == token.explanation
              && r.1 == (if env.stored then UpdateUserScore(t, r.0.userId, r.0.correct, env.stamp).0 else t)
              && r.0.totals == (if env.stored then Some(r.1[r.0.userId]) else None)
  {
    if |payload.actions| == 0 then (InternalError, t)
    else
      match payload.userId
      case None => (InternalError, t)
      case Some(userId) =>
        var action := payload.actions[0];
        match action.actionId
        case None => (InternalError, t)
        case Some(actionId) =>
          if !StartsWith(actionId, AnswerActionPrefix) then (NoReply, t)
          else
            match action.value
            case None => (InternalError, t)
            case Some(value) =>
              match DecodeToken(value)
              case None => (InternalError, t)
              case Some(token) =>
                var correct := IsCorrect(token);
                var (t', totals) := RecordAnswer(t, userId, correct, env.stamp, env.stored);
                (AnswerResult(userId, correct, token.correct, token.explanation, totals), t')
  }

  /** The payload the interaction body carries, when the field is present and
      decodes. */
  function BodyPayload(env: Env, text: string): Option<Payload> {
    var form := env.parseForm(text);
    if "payload" !in form || |form["payload"]| == 0 then None
    else env.decodePayload(form["payload"][0])
  }

  /** The interaction body: `json.loads(parse_qs(body)['payload'][0])`. */
  function InteractionBody(env: Env, t: Table, text: string): (r: (Reply, Table))
    ensures BodyPayload(env, text).None? ==> r == (InternalError, t)
    ensures BodyPayload(env, text).Some? ==> r == HandleInteraction(env, t, BodyPayload(env, text).value)
    ensures r.0.InternalError? || r.0.NoReply? || r.0.AnswerResult?
    ensures r.0.NoReply? ==> BodyPayload(env, text).Some? && OtherPress(BodyPayload(env, text).value)
    ensures r.1 == t || r.0.AnswerResult?
  {
    var form := env.parseForm(text);
    if "payload" !in form || |form["payload"]| == 0 then (InternalError, t)
    else
      match env.decodePayload(form["payload"][0])
      case None => (InternalError, t)
      case Some(payload) => HandleInteraction(env, t, payload)
  }

  /** The request passed verification and has a non-empty body, so the handler
      dispatches it. */
  predicate Dispatched(env: Env, event: Event) {
    && VerifySlackRequest(env.secret, env.now, env.mac, event)
    && event.body.BodyText? && event.body.text != ""
  }

  /** The content type marks a form-encoded body: a slash command. */
  predicate FormRequest(event: Event) {
    event.headers.Some? && StartsWith(Header(event.headers.value, ContentTypeHeader), FormContentType)
  }

  /** `lambda_handler`: authenticate, then dispatch on the body's content type.
      Returns the reply and the table afterwards. */
  function LambdaHandler(env: Env, t: Table, event: Event): (r: (Reply, Table))
    ensures r.0.Unauthorized? <==> !VerifySlackRequest(env.secret, env.now, env.mac, event)
    ensures r.0.BadRequest? <==>
              VerifySlackRequest(env.secret, env.now, env.mac, event)
              && (event.body.NoBody? || event.body.NullBody? || event.body == BodyText(""))
    ensures r.1 == t || r.0.AnswerResult?
    ensures Dispatched(env, event) && FormRequest(event) ==>
              && r.1 == t && !r.0.InternalError? && !r.0.AnswerResult?
              && r.0 == HandleSlashCommand(env, FormFields(env.parseForm(event.body.text)))
    ensures Dispatched(env, event) && !FormRequest(event) ==>
              && !r.0.QuizMessage? && !r.0.Ranking?
              && r == InteractionBody(env, t, event.body.text)
  {
    if !VerifySlackRequest(env.secret, env.now, env.mac, event) then (Unauthorized, t)
    else
      match event.body
      case NoBody => (BadRequest, t)
      case NullBody => (BadRequest, t)
      case BodyText(text) =>
        if text == "" then (BadRequest, t)
        else
          match event.headers
          case None => (InternalError, t)
          case Some(headers) =>
            if StartsWith(Header(headers, ContentTypeHeader), FormContentType) then
              (HandleSlashCommand(env, FormFields(env.parseForm(text))), t)
            else InteractionBody(env, t, text)
  }

  /** What each status code says about the request: 401 and 400 come before
      dispatch, a 500 only from the interaction path, and no reply at all only
      for an unknown slash command or a button that is not an answer. */
  lemma ReplySources(env: Env, t: Table, event: Event)
    ensures var r := LambdaHandler(env, t, event).0;
            r.Status() == Some(500) ==> Dispatched(env, event) && !FormRequest(event)
    ensures var r := LambdaHandler(env, t, event).0;
            r.Status() == Some(200) ==> Dispatched(env, event)
    ensures var r := LambdaHandler(env, t, event).0;
            r.Status().None? ==>
              && Dispatched(env, event)
              && if FormRequest(event) then
                   var command := Header(FormFields(env.parseForm(event.body.text)), "command");
                   command != QuizCommand && command != LeaderboardCommand
                 else
                   BodyPayload(env, event.body.text).Some? && OtherPress(BodyPayload(env, event.body.text).value)
  {
    var r := LambdaHandler(env, t, event).0;
    if r.Status().None? && Dispatched(env, event) && FormRequest(event) {
      assert r.NoReply?;
    }
  }

  /** The only change a request makes to the table is the answer it records, and
      that change is to the presser's item alone. */
  lemma OnlyAnswersChangeTable(env: Env, t: Table, event: Event, u: string)
    requires LambdaHandler(env, t, event).1 != t
    requires var r := LambdaHandler(env, t, event).0; r.AnswerResult? && u != r.userId
    ensures env.stored
    ensures Lookup(LambdaHandler(env, t, event).1, u) == Lookup(t, u)
  {
    var r := LambdaHandler(env, t, event).0;
    assert r.AnswerResult?;
    assert VerifySlackRequest(env.secret, env.now, env.mac, event);
    assert event.body.BodyText? && event.headers.Some?;
    var text := event.body.text;
    var form := env.parseForm(text);
    var payload := env.decodePayload(form["payload"][0]).value;
    assert LambdaHandler(env, t, event) == HandleInteraction(env, t, payload);
  }

  /** The action of pressing button `i` of a quiz message, by `presser`. */
  function Press(q: Quiz, addressee: string, presser: string, i: int): Payload
    requires OptionsNonEmpty(q.options) && 0 <= i < |q.options|
  {
    var b := CreateQuizBlocks(q, addressee).buttons[i];
    Payload([Action(Some(b.actionId), Some(b.value))], Some(presser))
  }

  /** Handling a button press grades it by comparing the option's label with
      the quiz's correct answer and records it for the presser. */
  lemma PressGrades(env: Env, t: Table, q: Quiz, addressee: string, presser: string, i: int)
    requires OptionsNonEmpty(q.options) && 0 <= i < |q.options|
    ensures var (r, t') := HandleInteraction(env, t, Press(q, addressee, presser, i));
            && r.AnswerResult? && r.userId == presser
            && (r.correct <==> Label(q.options[i]) == q.correctAnswer)
            && r.correctAnswer == q.correctAnswer && r.explanation == q.explanation
            && (env.stored ==> Total(Lookup(t', presser)) == Total(Lookup(t, presser)) + 1)
  {
    var b := CreateQuizBlocks(q, addressee).buttons[i];
    assert StartsWith(b.actionId, AnswerActionPrefix);
    ButtonToken(q, addressee, i);
  }

  /** Pressing button `i` of a quiz message end to end: once the request is
      authenticated and its payload decodes to that button's action, the answer
      is graded against the quiz and the presser's total goes up by one. */
  lemma PressingButtonGrades(env: Env, t: Table, event: Event, q: Quiz, addressee: string, presser: string, i: int)
    requires OptionsNonEmpty(q.options) && 0 <= i < |q.options|
    requires VerifySlackRequest(env.secret, env.now, env.mac, event)
    requires event.body.BodyText? && event.body.text != ""
    requires !StartsWith(Header(event.headers.value, ContentTypeHeader), FormContentType)
    requires var form := env.parseForm(event.body.text);
             "payload" in form && |form["payload"]| > 0
             && env.decodePayload(form["payload"][0]) == Some(Press(q, addressee, presser, i))
    requires env.stored
    ensures var (r, t') := LambdaHandler(env, t, event);
            && r.AnswerResult? && r.userId == presser
            && (r.correct <==> Label(q.options[i]) == q.correctAnswer)
            && r.correctAnswer == q.correctAnswer && r.explanation == q.explanation
            && Total(Lookup(t', presser)) == Total(Lookup(t, presser)) + 1
  {
    var payload := Press(q, addressee, presser, i);
    assert LambdaHandler(env, t, event) == InteractionBody(env, t, event.body.text);
    assert InteractionBody(env, t, event.body.text) == HandleInteraction(env, t, payload);
    PressGrades(env, t, q, addressee, presser, i);
  }

  /** `/awsquiz` when the model call failed: the fallback question, its buttons
      addressed to the caller. */
  lemma QuizCommandFallback(env: Env, fields: map<string, string>)
    requires Header(fields, "command") == QuizCommand && env.generated.None?
    ensures var r := HandleSlashCommand(env, fields);
            r.QuizMessage? && |r.message.buttons| == 4
            && forall i :: 0 <= i < 4 ==>
                 DecodeToken(r.message.buttons[i].value)
                 == Some(Token(Label(Fallback.options[i]), "B", Fallback.explanation, Header(fields, "user_id")))
  {
    FallbackShape();
    WellFormedNonEmpty(Fallback.options);
    assert HandleSlashCommand(env, fields) == QuizMessage(CreateQuizBlocks(Fallback, Header(fields, "user_id")));
    forall i | 0 <= i < 4
      ensures DecodeToken(CreateQuizBlocks(Fallback, Header(fields, "user_id")).buttons[i].value)
              == Some(Token(Label(Fallback.options[i]), "B", Fallback.explanation, Header(fields, "user_id")))
    {
      ButtonToken(Fallback, Header(fields, "user_id"), i);
    }
  }
}

=== FILE: signature.dfy ===
/** Slack request authentication (`verify_slack_request`): a replay window on
    the request timestamp and an HMAC-SHA256 signature over
    `v0:<timestamp>:<body>`. */
module Signature {
  import opened Wrappers
  import opened Text
  import opened Hex
  import opened PyInt

  /** HMAC-SHA256 keyed by the secret's text over the message's text. The model
      keeps it abstract: any function of key and message. */
  type Mac = (string, string) -> seq<byte>

  /** Largest accepted distance, in seconds, between the clock and the request timestamp. */
  const ReplayWindow: real := 300.0

  const TimestampHeader: string := "X-Slack-Request-Timestamp"
  const SignatureHeader: string := "X-Slack-Signature"

  /** The `body` entry of the gateway event: missing, present as JSON `null`, or text. */
  datatype Body = NoBody | NullBody | BodyText(text: string)

  /** The gateway event; `headers` is `None` when the entry is missing or `null`. */
  datatype Event = Event(headers: Option<map<string, string>>, body: Body)

  /** `d.get(name, '')` on the headers or the form fields: an exact-key lookup. */
  function Header(headers: map<string, string>, name: string): (v: string)
    ensures name in headers ==> v == headers[name]
    ensures name !in headers ==> v == ""
  {
    if name in headers then headers[name] else ""
  }

  /** The body as it appears inside the f-string: `''` when missing, `'None'` when null. */
  function SignedBody(b: Body): string {
    match b
    case NoBody => ""
    case NullBody => "None"
    case BodyText(t) => t
  }

  function BaseString(timestamp: string, body: string): string {
    "v0:" + timestamp + ":" + body
  }

  /** The `X-Slack-Signature` value Slack sends for this timestamp and body. */
  function ExpectedSignature(mac: Mac, secret: string, timestamp: string, body: string): string {
    "v0=" + HexDigest(mac(secret, BaseString(timestamp, body)))
  }

  /** `abs(now - ts) <= 300`, on exact reals. */
  predicate WithinWindow(now: real, ts: int) {
    -ReplayWindow <= now - ts as real <= ReplayWindow
  }

  /** `verify_slack_request`. `secret` is the Secrets Manager lookup (`None` when it
      failed) and `now` is `time.time()`. Every failure yields `false`. */
  function VerifySlackRequest(secret: Option<string>, now: real, mac: Mac, event: Event): (ok: bool)
    ensures secret.None? || secret == Some("") ==> !ok
    ensures event.headers.None? ==> !ok
    ensures ok ==>
      && secret.Some? && event.headers.Some?
      && var ts := Header(event.headers.value, TimestampHeader);
      && ParseInt(ts).Some?
      && WithinWindow(now, ParseInt(ts).value)
      && Header(event.headers.value, SignatureHeader)
         == ExpectedSignature(mac, secret.value, ts, SignedBody(event.body))
    ensures
      (&& secret.Some? && secret.value != "" && event.headers.Some?
       && var ts := Header(event.headers.value, TimestampHeader);
       && ParseInt(ts).Some?
       && WithinWindow(now, ParseInt(ts).value)
       && Header(event.headers.value, SignatureHeader)
          == ExpectedSignature(mac, secret.value, ts, SignedBody(event.body)))
      ==> ok
  {
    if secret.None? || secret.value == "" || event.headers.None? then false
    else
      var headers := event.headers.value;
      var ts := Header(headers, TimestampHeader);
      var sig := Header(headers, SignatureHeader);
      match ParseInt(ts)
      case None => false
      case Some(t) =>
        if !WithinWindow(now, t) then false
        else sig == ExpectedSignature(mac, secret.value, ts, SignedBody(event.body))
  }

  /** The event Slack sends: timestamp `str(t)`, body text and its signature. */
  function SignedEvent(mac: Mac, secret: string, t: int, body: string, extra: map<string, string>): Event {
    var ts := Show(t);
    Event(Some(extra[TimestampHeader := ts][SignatureHeader := ExpectedSignature(mac, secret, ts, body)]),
          BodyText(body))
  }

  /** A request Slack signed with the shared secret is accepted while it is fresh,
      including at exactly 300 seconds. */
  lemma SignedRequestAccepted(mac: Mac, secret: string, now: real, t: int, body: string, extra: map<string, string>)
    requires secret != ""
    requires Showable(t)
    requires WithinWindow(now, t)
    ensures VerifySlackRequest(Some(secret), now, mac, SignedEvent(mac, secret, t, body, extra))
  {
    var event := SignedEvent(mac, secret, t, body, extra);
    var headers := event.headers.value;
    assert TimestampHeader != SignatureHeader by {
      assert TimestampHeader[8] != SignatureHeader[8];
    }
    assert Header(headers, TimestampHeader) == Show(t);
    assert Header(headers, SignatureHeader) == ExpectedSignature(mac, secret, Show(t), body);
    ParseShow(t);
  }

  /** A request whose timestamp is more than 300 seconds from the clock is rejected,
      whatever its signature. */
  lemma StaleRequestRejected(secret: Option<string>, now: real, mac: Mac, event: Event, t: int)
    requires event.headers.Some? && ParseInt(Header(event.headers.value, TimestampHeader)) == Some(t)
    requires now - t as real > 300.0 || t as real - now > 300.0
    ensures !VerifySlackRequest(secret, now, mac, event)
  {
  }

  /** A timestamp padded with an information separator is rejected even when the
      signature over it is correct: `int()` does not skip U+001C..U+001F. */
  lemma SeparatorPaddedRejected(mac: Mac, secret: string, now: real, body: string)
    ensures var ts := [0x1C as char] + Show(5);
            !VerifySlackRequest(Some(secret), now, mac,
               Event(Some(map[TimestampHeader := ts, SignatureHeader := ExpectedSignature(mac, secret, ts, body)]),
                     BodyText(body)))
  {
    var ts := [0x1C as char] + Show(5);
    assert IsSeparator(ts[0]);
  }

  /** Index of the first colon at or after `i`, or `|s|` when there is none. */
  function ColonFrom(s: string, i: nat): nat
    decreases |s| - i
  {
    if i >= |s| then |s| else if s[i] == ':' then i else ColonFrom(s, i + 1)
  }

  lemma {:induction false} ColonAt(s: string, i: nat, j: nat)
    requires i <= j < |s| && s[j] == ':'
    requires forall k :: i <= k < j ==> s[k] != ':'
    ensures ColonFrom(s, i) == j
    decreases j - i
  {
    if i < j {
      ColonAt(s, i + 1, j);
    }
  }

  /** The base string determines the timestamp and the body, given that the
      timestamps contain no colon (which every accepted timestamp satisfies). */
  lemma BaseStringInjective(ts1: string, body1: string, ts2: string, body2: string)
    requires ':' !in ts1 && ':' !in ts2
    requires BaseString(ts1, body1) == BaseString(ts2, body2)
    ensures ts1 == ts2 && body1 == body2
  {
    var s := BaseString(ts1, body1);
    ColonAt(s, 3, 3 + |ts1|);
    ColonAt(s, 3, 3 + |ts2|);
    assert ts1 == s[3..3 + |ts1|] == ts2;
    assert body1 == s[4 + |ts1|..] == body2;
  }

  /** Equal signatures mean equal key, timestamp and body, provided the MAC does
      not collide on the two inputs. */
  lemma SignatureDetermines(mac: Mac, k1: string, ts1: string, body1: string, k2: string, ts2: string, body2: string)
    requires ':' !in ts1 && ':' !in ts2
    requires mac(k1, BaseString(ts1, body1)) == mac(k2, BaseString(ts2, body2))
             ==> k1 == k2 && BaseString(ts1, body1) == BaseString(ts2, body2)
    ensures ExpectedSignature(mac, k1, ts1, body1) == ExpectedSignature(mac, k2, ts2, body2)
            ==> k1 == k2 && ts1 == ts2 && body1 == body2
  {
    var d1, d2 := mac(k1, BaseString(ts1, body1)), mac(k2, BaseString(ts2, body2));
    if ExpectedSignature(mac, k1, ts1, body1) == ExpectedSignature(mac, k2, ts2, body2) {
      assert HexDigest(d1) == ExpectedSignature(mac, k1, ts1, body1)[3..];
      assert HexDigest(d2) == ExpectedSignature(mac, k2, ts2, body2)[3..];
      HexDigestInjective(d1, d2);
      BaseStringInjective(ts1, body1, ts2, body2);
    }
  }

  /** A signature made with key `k` over `(ts, body)` is rejected when replayed
      with any other key, timestamp or body, provided the MAC does not collide on
      the two inputs. */
  lemma ForgeryRejected(mac: Mac, k: string, ts: string, body: string, key: string, now: real, event: Event)
    requires ':' !in ts
    requires event.headers.Some?
    requires Header(event.headers.value, SignatureHeader) == ExpectedSignature(mac, k, ts, body)
    requires (k, ts, body) != (key, Header(event.headers.value, TimestampHeader), SignedBody(event.body))
    requires var ts' := Header(event.headers.value, TimestampHeader);
             mac(k, BaseString(ts, body)) == mac(key, BaseString(ts', SignedBody(event.body)))
             ==> k == key && BaseString(ts, body) == BaseString(ts', SignedBody(event.body))
    ensures !VerifySlackRequest(Some(key), now, mac, event)
  {
    var ts' := Header(event.headers.value, TimestampHeader);
    if ParseInt(ts').Some? {
      ParsedHasNoColon(ts');
      SignatureDetermines(mac, k, ts, body, key, ts', SignedBody(event.body));
    }
  }
}

=== FILE: text.dfy ===
/** Python string primitives the webhook relies on: `str.isspace`,
    `str.strip`, `str.startswith`, `str.split('\n')` and ASCII `str.lower`. */
module Text {

  /** Python's `str.isspace` for a single code point. */
  predicate IsSpace(c: char) {
    var n := c as int;
    || 0x09 <= n <= 0x0D
    || 0x1C <= n <= 0x20
    || n == 0x85 || n == 0xA0 || n == 0x1680
    || 0x2000 <= n <= 0x200A
    || n == 0x2028 || n == 0x2029 || n == 0x202F || n == 0x205F || n == 0x3000
  }

  predicate StartsWith(s: string, prefix: string) {
    |prefix| <= |s| && s[..|prefix|] == prefix
  }

  /** `s.lstrip()` */
  function TrimLeft(s: string): (r: string)
    ensures |r| <= |s|
    ensures |r| == 0 || !IsSpace(r[0])
  {
    if |s| > 0 && IsSpace(s[0]) then TrimLeft(s[1..]) else s
  }

  /** `s.rstrip()` */
  function TrimRight(s: string): (r: string)
    ensures |r| <= |s|
    ensures |r| == 0 || !IsSpace(r[|r| - 1])
  {
    if |s| > 0 && IsSpace(s[|s| - 1]) then TrimRight(s[..|s| - 1]) else s
  }

  /** `lstrip` drops a prefix made of whitespace. */
  lemma {:induction false} TrimLeftDrops(s: string)
    ensures TrimLeft(s) == s[|s| - |TrimLeft(s)|..]
    ensures forall i :: 0 <= i < |s| - |TrimLeft(s)| ==> IsSpace(s[i])
  {
    if |s| > 0 && IsSpace(s[0]) {
      TrimLeftDrops(s[1..]);
    }
  }

  /** `rstrip` drops a suffix made of whitespace. */
  lemma {:induction false} TrimRightDrops(s: string)
    ensures TrimRight(s) == s[..|TrimRight(s)|]
    ensures forall i :: |TrimRight(s)| <= i < |s| ==> IsSpace(s[i])
  {
    if |s| > 0 && IsSpace(s[|s| - 1]) {
      TrimRightDrops(s[..|s| - 1]);
    }
  }

  /** `s.strip()`: `s` without its leading and trailing whitespace. */
  function Strip(s: string): (r: string)
    ensures |r| <= |s|
    ensures |r| == 0 || (!IsSpace(r[0]) && !IsSpace(r[|r| - 1]))
    ensures |s| == 0 || (!IsSpace(s[0]) && !IsSpace(s[|s| - 1])) ==> r == s
  {
    var l := TrimLeft(s);
    TrimRightDrops(l);
    TrimRight(l)
  }

  /** What `Strip` removes is whitespace, and what it keeps is one contiguous infix. */
  lemma StripInfix(s: string)
    ensures var lead := |s| - |TrimLeft(s)|;
            var r := Strip(s);
            && lead + |r| <= |s|
            && r == s[lead..lead + |r|]
            && (forall i :: 0 <= i < lead ==> IsSpace(s[i]))
            && (forall i :: lead + |r| <= i < |s| ==> IsSpace(s[i]))
  {
    var l := TrimLeft(s);
    var lead := |s| - |l|;
    var r := TrimRight(l);
    TrimLeftDrops(s);
    TrimRightDrops(l);
    assert l == s[lead..];
    assert r == l[..|r|];
    assert r == s[lead..lead + |r|];
    forall i | lead + |r| <= i < |s|
      ensures IsSpace(s[i])
    {
      assert s[i] == l[i - lead];
    }
  }

  /** Stripping twice is stripping once. */
  lemma StripIdempotent(s: string)
    ensures Strip(Strip(s)) == Strip(s)
  {
  }

  /** `s.split('\n')`: the pieces between newlines, in order. */
  function Split(s: string): (r: seq<string>)
    ensures |r| >= 1
    ensures forall i :: 0 <= i < |r| ==> '\n' !in r[i]
  {
    if |s| == 0 then [""]
    else
      var rest := Split(s[1..]);
      if s[0] == '\n' then [""] + rest
      else [[s[0]] + rest[0]] + rest[1..]
  }

  /** `'\n'.join(lines)`, the inverse of `Split`. */
  function Join(lines: seq<string>): string
    requires |lines| >= 1
  {
    if |lines| == 1 then lines[0] else lines[0] + "\n" + Join(lines[1..])
  }

  lemma {:induction false} SplitAfterLine(a: string, b: string)
    requires '\n' !in a
    ensures Split(a + "\n" + b) == [a] + Split(b)
  {
    if |a| == 0 {
      assert (a + "\n" + b)[1..] == b;
    } else {
      assert (a + "\n" + b)[1..] == a[1..] + "\n" + b;
      SplitAfterLine(a[1..], b);
      assert [a[0]] + a[1..] == a;
    }
  }

  lemma {:induction false} SplitSingleLine(a: string)
    requires '\n' !in a
    ensures Split(a) == [a]
  {
    if |a| > 0 {
      SplitSingleLine(a[1..]);
      assert [a[0]] + a[1..] == a;
    }
  }

  /** Splitting a newline-joined list of newline-free lines gives the lines back. */
  lemma {:induction false} SplitJoin(lines: seq<string>)
    requires |lines| >= 1
    requires forall i :: 0 <= i < |lines| ==> '\n' !in lines[i]
    ensures Split(Join(lines)) == lines
  {
    if |lines| == 1 {
      SplitSingleLine(lines[0]);
    } else {
      SplitAfterLine(lines[0], Join(lines[1..]));
      SplitJoin(lines[1..]);
    }
  }

  /** A joined text ends with its last line. */
  lemma {:induction false} JoinLast(lines: seq<string>)
    requires |lines| >= 1 && |lines[|lines| - 1]| > 0
    ensures var j := Join(lines);
            |j| > 0 && j[|j| - 1] == lines[|lines| - 1][|lines[|lines| - 1]| - 1]
  {
    if |lines| > 1 {
      JoinLast(lines[1..]);
    }
  }

  /** Joining the pieces of a split gives the original string back. */
  lemma {:induction false} JoinSplit(s: string)
    ensures Join(Split(s)) == s
  {
    if |s| > 0 {
      JoinSplit(s[1..]);
      var rest := Split(s[1..]);
      if s[0] == '\n' {
        assert ([""] + rest)[1..] == rest;
      } else {
        var r := [[s[0]] + rest[0]] + rest[1..];
        assert r[1..] == rest[1..];
        if |rest| == 1 {
          assert s == [s[0]] + s[1..];
        } else {
          assert Join(rest) == rest[0] + "\n" + Join(rest[1..]);
          assert s == [s[0]] + s[1..];
        }
      }
    }
  }

  /** Python's `str.lower` restricted to ASCII letters. */
  function LowerChar(c: char): (r: char)
    ensures 'A' <= c <= 'Z' ==> 'a' <= r <= 'z' && r as int - c as int == 32
    ensures !('A' <= c <= 'Z') ==> r == c
  {
    if 'A' <= c <= 'Z' then (c as int + 32) as char else c
  }

  function Lower(s: string): (r: string)
    ensures |r| == |s|
    ensures forall i :: 0 <= i < |s| ==> r[i] == LowerChar(s[i])
  {
    seq(|s|, i requires 0 <= i < |s| => LowerChar(s[i]))
  }
}

=== FILE: token.dfy ===
/** The answer token carried in each button's `value`: the dictionary
    `{answer, correct, explanation, user_id}` as `json.dumps` writes it
    (default settings, so every non-ASCII character is escaped) and as
    `json.loads` reads it back. */
module AnswerToken {
  import opened Wrappers
  import opened Hex
  import opened Text

  /** The grading state that travels with each button. */
  datatype Token = Token(answer: string, correct: string, explanation: string, userId: string)

  predicate Printable(c: char) {
    0x20 <= c as int <= 0x7E
  }

  /** One character inside a JSON string literal as `json.dumps` writes it with
      `ensure_ascii`: short escapes for the quote, the backslash and five control
      characters, printable ASCII as is, anything else as `\uXXXX` (a surrogate
      pair beyond the Basic Multilingual Plane). */
  function EscapeChar(c: char): (e: string)
    ensures |e| > 0
  {
    var n := c as int;
    if c == '"' then "\\\""
    else if c == '\\' then "\\\\"
    else if n == 0x08 then "\\b"
    else if n == 0x0C then "\\f"
    else if n == 0x0A then "\\n"
    else if n == 0x0D then "\\r"
    else if n == 0x09 then "\\t"
    else if 0x20 <= n <= 0x7E then [c]
    else if n < 0x10000 then "\\u" + Hex4(n)
    else PairEscape(n)
  }

  /** The body of a JSON string literal: every character escaped in turn. */
  function Escape(s: string): (e: string)
    ensures forall i :: 0 <= i < |e| ==> Printable(e[i])
  {
    if |s| == 0 then ""
    else
      EscapeCharPrintable(s[0]);
      EscapeChar(s[0]) + Escape(s[1..])
  }

  predicate AllPrintable(s: string) {
    forall i :: 0 <= i < |s| ==> Printable(s[i])
  }

  lemma HexPrintable(n: int)
    requires 0 <= n < 0x10000
    ensures AllPrintable(Hex4(n))
  {
  }

  lemma PrintableConcat(a: string, b: string)
    requires AllPrintable(a) && AllPrintable(b)
    ensures AllPrintable(a + b)
  {
  }

  /** `ensure_ascii`: every escape is printable ASCII. */
  lemma EscapeCharPrintable(c: char)
    ensures AllPrintable(EscapeChar(c))
  {
    var n := c as int;
    if n < 0x10000 && !(n < 0x20 || n > 0x7E || c == '"' || c == '\\') {
      assert EscapeChar(c) == [c];
    } else if 0x7E < n < 0x10000 || (n < 0x20 && n != 8 && n != 9 && n != 10 && n != 12 && n != 13) {
      HexPrintable(n);
      PrintableConcat("\\u", Hex4(n));
    } else if n >= 0x10000 {
      HexPrintable(HighOf(n));
      HexPrintable(LowOf(n));
      PrintableConcat("\\u", Hex4(LowOf(n)));
      PrintableConcat(Hex4(HighOf(n)), "\\u" + Hex4(LowOf(n)));
      PrintableConcat("\\u", Hex4(HighOf(n)) + ("\\u" + Hex4(LowOf(n))));
    }
  }

  /** One `"<key>": "<value>"` member with what precedes it: the literal text up
      to the value's opening quote, the escaped value, the closing quote. */
  function Member(literal: string, v: string): string {
    literal + Escape(v) + "\""
  }

  const AnswerKey := "{\"answer\": \""
  const CorrectKey := ", \"correct\": \""
  const ExplanationKey := ", \"explanation\": \""
  const UserKey := ", \"user_id\": \""

  /** `json.dumps` of the token dictionary, keys in insertion order, default separators. */
  function EncodeToken(t: Token): (r: string)
  {
    Member(AnswerKey, t.answer) + (Member(CorrectKey, t.correct)
      + (Member(ExplanationKey, t.explanation) + (Member(UserKey, t.userId) + "}")))
  }

  /** The token text `json.dumps` writes: one object opening with the `answer`
      key and closing with `}`, every character printable ASCII. */
  lemma EncodedShape(t: Token)
    ensures var r := EncodeToken(t);
            && StartsWith(r, AnswerKey) && r[|r| - 1] == '}'
            && AllPrintable(r)
  {
    var m1 := Member(AnswerKey, t.answer);
    var tail := Member(CorrectKey, t.correct)
      + (Member(ExplanationKey, t.explanation) + (Member(UserKey, t.userId) + "}"));
    assert EncodeToken(t) == m1 + tail;
    assert m1[..|AnswerKey|] == AnswerKey;
    assert (m1 + tail)[..|AnswerKey|] == m1[..|AnswerKey|];
    EncodedPrintable(t);
  }

  lemma KeysPrintable()
    ensures AllPrintable(AnswerKey) && AllPrintable(CorrectKey)
    ensures AllPrintable(ExplanationKey) && AllPrintable(UserKey) && AllPrintable("}")
  {
  }

  lemma EncodedPrintable(t: Token)
    ensures AllPrintable(EncodeToken(t))
  {
    var m1, m2, m3, m4 := Member(AnswerKey, t.answer), Member(CorrectKey, t.correct),
                          Member(ExplanationKey, t.explanation), Member(UserKey, t.userId);
    KeysPrintable();
    MemberPrintable(AnswerKey, t.answer);
    MemberPrintable(CorrectKey, t.correct);
    MemberPrintable(ExplanationKey, t.explanation);
    MemberPrintable(UserKey, t.userId);
    PrintableConcat(m4, "}");
    PrintableConcat(m3, m4 + "}");
    PrintableConcat(m2, m3 + (m4 + "}"));
    PrintableConcat(m1, m2 + (m3 + (m4 + "}")));
  }

  lemma MemberPrintable(literal: string, v: string)
    requires AllPrintable(literal)
    ensures AllPrintable(Member(literal, v))
  {
    PrintableConcat(literal, Escape(v));
    PrintableConcat(literal + Escape(v), "\"");
  }

  /** The character a one-letter escape stands for; `None` for an invalid escape. */
  function SimpleEscape(e: char): Option<char> {
    if e == '"' then Some('"')
    else if e == '\\' then Some('\\')
    else if e == '/' then Some('/')
    else if e == 'b' then Some(0x08 as char)
    else if e == 'f' then Some(0x0C as char)
    else if e == 'n' then Some('\n')
    else if e == 'r' then Some('\r')
    else if e == 't' then Some('\t')
    else None
  }

  predicate IsHighSurrogate(u: int) {
    0xD800 <= u <= 0xDBFF
  }

  predicate IsLowSurrogate(u: int) {
    0xDC00 <= u <= 0xDFFF
  }

  /** The code point a high and a low surrogate stand for together. */
  function Combine(hi: int, lo: int): (n: int)
    requires IsHighSurrogate(hi) && IsLowSurrogate(lo)
    ensures 0x10000 <= n < 0x110000
  {
    0x10000 + (hi - 0xD800) * 0x400 + (lo - 0xDC00)
  }

  /** The character of a `\u` escape whose four digits start `s`, and what is
      left of `s`; `None` where `json.loads` raises. */
  function ReadUnicode(s: string): (r: Option<(char, string)>)
    ensures r.Some? ==> |r.value.1| <= |s| - 4
  {
    if |s| < 4 then None
    else
      match Value4(s[..4])
      case None => None
      case Some(u) => CodeUnit(u, s[4..])
  }

  /** A code unit read from a `\u` escape: a character of its own, or a high
      surrogate that joins the low surrogate of the next `\u` escape. A lone
      surrogate has no character and yields `None`. */
  function CodeUnit(u: int, rest: string): (r: Option<(char, string)>)
    requires 0 <= u < 0x10000
    ensures r.Some? ==> |r.value.1| <= |rest|
  {
    if IsHighSurrogate(u) then LowHalf(u, rest)
    else if IsLowSurrogate(u) then None
    else Some((u as char, rest))
  }

  function LowHalf(hi: int, rest: string): (r: Option<(char, string)>)
    requires IsHighSurrogate(hi)
    ensures r.Some? ==> |r.value.1| <= |rest|
  {
    if |rest| >= 6 && rest[0] == '\\' && rest[1] == 'u' then
      match Value4(rest[2..6])
      case None => None
      case Some(lo) => if IsLowSurrogate(lo) then Some((Combine(hi, lo) as char, rest[6..])) else None
    else None
  }

  function Prepend(c: char, r: Option<(string, string)>): Option<(string, string)> {
    match r
    case None => None
    case Some((v, rest)) => Some(([c] + v, rest))
  }

  /** Reads a JSON string literal whose opening quote is already consumed: its
      value and the text after the closing quote. `None` where `json.loads`
      raises: no closing quote, a raw control character, an invalid escape. */
  function ReadString(s: string): (r: Option<(string, string)>)
    ensures r.Some? ==> |r.value.1| < |s|
    decreases |s|
  {
    if |s| == 0 then None
    else if s[0] == '"' then Some(("", s[1..]))
    else if s[0] == '\\' then
      if |s| < 2 then None
      else if s[1] == 'u' then
        match ReadUnicode(s[2..])
        case None => None
        case Some((c, rest)) => Prepend(c, ReadString(rest))
      else
        match SimpleEscape(s[1])
        case None => None
        case Some(c) => Prepend(c, ReadString(s[2..]))
    else if (s[0] as int) < 0x20 then None
    else Prepend(s[0], ReadString(s[1..]))
  }

  function Expect(literal: string, s: string): Option<string> {
    if |literal| <= |s| && s[..|literal|] == literal then Some(s[|literal|..]) else None
  }

  /** One `"<key>": "<value>"` member: the literal text up to the value's opening
      quote, then the value. */
  function ReadMember(literal: string, s: string): Option<(string, string)> {
    match Expect(literal, s)
    case None => None
    case Some(rest) => ReadString(rest)
  }

  /** `json.loads` of a button value, for the object layout `json.dumps` writes;
      `None` where decoding raises. */
  function DecodeToken(s: string): (r: Option<Token>)
    ensures r.Some? ==> StartsWith(s, AnswerKey)
  {
    match ReadMember(AnswerKey, s)
    case None => None
    case Some((answer, s1)) =>
      match ReadMember(CorrectKey, s1)
      case None => None
      case Some((correct, s2)) =>
        match ReadMember(ExplanationKey, s2)
        case None => None
        case Some((explanation, s3)) =>
          match ReadMember(UserKey, s3)
          case None => None
          case Some((userId, s4)) =>
            if s4 == "}" then Some(Token(answer, correct, explanation, userId)) else None
  }

  lemma ReadShortEscape(e: char, c: char, tail: string)
    requires e != 'u' && SimpleEscape(e) == Some(c)
    ensures ReadString(['\\', e] + tail) == Prepend(c, ReadString(tail))
  {
    assert (['\\', e] + tail)[2..] == tail;
  }

  lemma ReadPlain(c: char, tail: string)
    requires Printable(c) && c != '"' && c != '\\'
    ensures ReadString([c] + tail) == Prepend(c, ReadString(tail))
  {
    assert ([c] + tail)[1..] == tail;
  }

  lemma ReadUnicodeEscape(u: string, c: char, tail: string)
    requires ReadUnicode(u) == Some((c, tail))
    ensures ReadString("\\u" + u) == Prepend(c, ReadString(tail))
  {
    assert ("\\u" + u)[2..] == u;
  }

  lemma ReadBmpEscape(n: int, tail: string)
    requires 0 <= n < 0xD800 || 0xDFFF < n < 0x10000
    ensures ReadString("\\u" + (Hex4(n) + tail)) == Prepend(n as char, ReadString(tail))
  {
    var u := Hex4(n) + tail;
    assert u[..4] == Hex4(n);
    Value4Hex4(n);
    assert u[4..] == tail;
    ReadUnicodeEscape(u, n as char, tail);
  }

  /** The high surrogate `json.dumps` writes for a code point beyond U+FFFF. */
  function HighOf(n: int): (hi: int)
    requires 0x10000 <= n < 0x110000
    ensures IsHighSurrogate(hi)
  {
    0xD800 + (n - 0x10000) / 0x400
  }

  /** The low surrogate `json.dumps` writes for a code point beyond U+FFFF. */
  function LowOf(n: int): (lo: int)
    requires 0x10000 <= n < 0x110000
    ensures IsLowSurrogate(lo)
  {
    0xDC00 + (n - 0x10000) % 0x400
  }

  lemma CombineHalves(n: int)
    requires 0x10000 <= n < 0x110000
    ensures Combine(HighOf(n), LowOf(n)) == n
  {
  }

  lemma ReadLowHalf(hi: int, lo: int, tail: string)
    requires IsHighSurrogate(hi) && IsLowSurrogate(lo)
    ensures LowHalf(hi, "\\u" + (Hex4(lo) + tail)) == Some((Combine(hi, lo) as char, tail))
  {
    var rest := "\\u" + (Hex4(lo) + tail);
    assert rest[2..6] == Hex4(lo);
    Value4Hex4(lo);
    assert rest[6..] == tail;
  }

  lemma ReadPair(hi: int, lo: int, tail: string)
    requires IsHighSurrogate(hi) && IsLowSurrogate(lo)
    ensures ReadUnicode(Hex4(hi) + ("\\u" + (Hex4(lo) + tail))) == Some((Combine(hi, lo) as char, tail))
  {
    var rest := "\\u" + (Hex4(lo) + tail);
    var u := Hex4(hi) + rest;
    assert u[..4] == Hex4(hi);
    Value4Hex4(hi);
    assert u[4..] == rest;
    ReadLowHalf(hi, lo, tail);
  }

  /** The two `\u` escapes written for a character beyond the Basic Multilingual Plane. */
  function PairEscape(n: int): string
    requires 0x10000 <= n < 0x110000
  {
    "\\u" + (Hex4(HighOf(n)) + ("\\u" + Hex4(LowOf(n))))
  }

  lemma ReadSurrogatePair(n: int, tail: string)
    requires 0x10000 <= n < 0x110000
    ensures ReadString(PairEscape(n) + tail) == Prepend(n as char, ReadString(tail))
  {
    var hi, lo := HighOf(n), LowOf(n);
    ReadPair(hi, lo, tail);
    CombineHalves(n);
    var u := Hex4(hi) + ("\\u" + (Hex4(lo) + tail));
    ReadUnicodeEscape(u, n as char, tail);
    Regroup("\\u", Hex4(hi), "\\u", Hex4(lo), tail);
  }

  lemma Regroup(a: string, b: string, c: string, d: string, e: string)
    ensures (a + (b + (c + d))) + e == a + (b + (c + (d + e)))
  {
  }

  /** Reading one escaped character yields that character, then continues. */
  lemma ReadEscapedChar(c: char, tail: string)
    ensures ReadString(EscapeChar(c) + tail) == Prepend(c, ReadString(tail))
  {
    var n := c as int;
    if c == '"' || c == '\\' || n == 0x08 || n == 0x0C || n == 0x0A || n == 0x0D || n == 0x09 {
      ReadShortEscapedChar(c, tail);
    } else if 0x20 <= n <= 0x7E {
      ReadPlain(c, tail);
    } else if n < 0x10000 {
      ReadBmpEscape(n, tail);
      assert EscapeChar(c) + tail == "\\u" + (Hex4(n) + tail);
    } else {
      ReadSurrogatePair(n, tail);
      assert EscapeChar(c) == PairEscape(n);
    }
  }

  /** The characters with a one-letter escape read back through it. */
  lemma ReadShortEscapedChar(c: char, tail: string)
    requires var n := c as int;
             c == '"' || c == '\\' || n == 0x08 || n == 0x0C || n == 0x0A || n == 0x0D || n == 0x09
    ensures ReadString(EscapeChar(c) + tail) == Prepend(c, ReadString(tail))
  {
    var n := c as int;
    if c == '"' {
      ReadShortEscape('"', c, tail);
    } else if c == '\\' {
      ReadShortEscape('\\', c, tail);
    } else if n == 0x08 {
      ReadShortEscape('b', c, tail);
    } else if n == 0x0C {
      ReadShortEscape('f', c, tail);
    } else if n == 0x0A {
      ReadShortEscape('n', c, tail);
    } else if n == 0x0D {
      ReadShortEscape('r', c, tail);
    } else {
      ReadShortEscape('t', c, tail);
    }
  }

  /** A string literal written by `json.dumps` reads back as the original text. */
  lemma {:induction false} ReadEscaped(v: string, rest: string)
    ensures ReadString(Escape(v) + "\"" + rest) == Some((v, rest))
  {
    if |v| == 0 {
      assert Escape(v) + "\"" + rest == "\"" + rest;
    } else {
      var tail := Escape(v[1..]) + "\"" + rest;
      ReadEscaped(v[1..], rest);
      ReadEscapedChar(v[0], tail);
      assert Escape(v) == EscapeChar(v[0]) + Escape(v[1..]);
      assert Escape(v) + "\"" + rest == EscapeChar(v[0]) + tail;
      assert [v[0]] + v[1..] == v;
    }
  }

  lemma ReadMemberEscaped(literal: string, v: string, rest: string)
    ensures ReadMember(literal, Member(literal, v) + rest) == Some((v, rest))
  {
    var s := Member(literal, v) + rest;
    assert s[..|literal|] == literal;
    assert s[|literal|..] == Escape(v) + "\"" + rest;
    ReadEscaped(v, rest);
  }

  /** Round trip: decoding an encoded token gives the token back. */
  lemma DecodeEncode(t: Token)
    ensures DecodeToken(EncodeToken(t)) == Some(t)
  {
    var s3 := Member(UserKey, t.userId) + "}";
    var s2 := Member(ExplanationKey, t.explanation) + s3;
    var s1 := Member(CorrectKey, t.correct) + s2;
    ReadMemberEscaped(AnswerKey, t.answer, s1);
    ReadMemberEscaped(CorrectKey, t.correct, s2);
    ReadMemberEscaped(ExplanationKey, t.explanation, s3);
    ReadMemberEscaped(UserKey, t.userId, "}");
  }
}

=== FILE: wrappers.dfy ===
/** Option datatype for Python's `None` results and for calls that raise. */
module Wrappers {

  datatype Option<+T> = None | Some(value: T) {

    /** The wrapped value, or `default` when there is none (Python's `d.get(k, default)`). */
    function GetOr(default: T): T {
      match this
      case Some(v) => v
      case None => default
    }
  }
}
